=== FILE: README.md ===
# dcbot study-helper core, modelled in Dafny

dcbot is a Discord bot. It answers mentions with a language model, runs a
daily word game in one channel, and turns uploaded PDF handouts into
"reviewer" PDFs. This project models the deterministic core of those
features as pure Dafny functions over strings, sequences and small
records, and proves what the code promises about them.

- **utils.py**
  - `clean_text` removes the control characters `[\x00-\x1F\x7F]`.
  - `split_text` cuts the cleaned reply into Discord-sized chunks.
  - The handout plan is the element list its `generate_formatted_pdf` hands
    to the PDF builder. Elements are abstract tokens: `Heading`, `Body`,
    `Spacer(height)` and `Rule`.
- **project.py**
  - `markdown_to_pdf`: its three `re.sub` rewrites are written as
    left-to-right scanners with Python's matching rules. These are bold
    `**x**`, inline code `` `x` ``, and the MULTILINE rule line
    `^\s*---\s*$`.
  - The sentence splitter `split_reviewer_text`.
  - The `/review` filename check.
  - The reviewer plan, whose rules sit only *between* `<hr/>` sections.
- **game.py**
  - The round state: the current and previous word, the two score tables
    and the remembered pinned message.
  - `choose_new_word`, with the random draw given as an index.
  - The state effects of `reset_game`: the purge of the newest 100 channel
    messages, which keeps pinned ones and stops at the first exception, and
    the announcements it sends.
  - The routing result of `handle_game_message`.
- **chatbot.py**
  - Whether a message is handled.
  - How the prompt is extracted: `<@id>` is removed, then `<@!id>`, then the
    result is stripped.
  - Which reply is shown for each outcome of the model call. The outcomes
    are usage hint, answer, no response, credit limit and generic error.

Python's `str` operations are modelled with their Python meaning in module
`Strings`:
- `split` and `count` cut at leftmost non-overlapping occurrences.
- `replace` is `sep.join(s.split(old))`.
- `strip` and `\s` use the 29 code points of `str.isspace()`.
- The `in` operator is `Contains`.

Modules follow the sources:
- `Wrappers`: optional values.
- `Strings`: Python string operations.
- `Layout`: plan elements shared by both PDF plans.
- `Utils`: utils.py.
- `Markdown`: `markdown_to_pdf`.
- `Project`: the rest of project.py.
- `Game`: game.py.
- `Chatbot`: chatbot.py.

Behaviours of the code that the proofs make explicit:
- The utils.py plan draws a rule after every section, the last one
  included. The project.py plan draws one fewer
  (`Project.HandoutHasTrailingRule`).
- A `---` line between blank lines takes both blank lines with it into
  `<hr/>` (`Markdown.MarkdownRuleSwallowsBlankLines`).
- `pinned_message` is a module global that no reset clears. Once a pinned
  message has been seen, every later reset whose channel is found announces
  yesterday's word (`Game.ResetGame`). A reset whose channel is not found
  sends nothing.
- The first reset ever, when its purge meets a pinned message, names the
  word `None` (`Game.FirstResetAnnouncesNone`). A first reset that meets no
  pinned message still chooses a word, so a later reset that first meets a
  pinned message names that word (`Game.PinnedResetNamesPreviousWord`).
- Each `replace` is a single pass, so `<@<@id>id>` leaves the mention
  `<@id>` in the prompt (`Chatbot.NestedMentionSurvives`).
- Any exception text containing `402` is reported as the credit limit
  (`Chatbot.CreditLimitOnAny402`).

## Model

| member | source | states |
|---|---|---|
| Utils.CleanText | utils.py:36-38 | the result is no longer than the input and holds no character of `[\x00-\x1F\x7F]` |
| Utils.IsControl | utils.py:38 | the characters U+0000 to U+001F and U+007F, the class the cleaning removes; CleanTextFixedPoints states that these are exactly the characters cleaning changes |
| Utils.CleanTextContents | utils.py:36-38 | every non-control character keeps its number of occurrences and every control character is gone |
| Utils.CleanTextConcat | utils.py:36-38 | cleaning distributes over concatenation, so the kept characters stay in their original order |
| Utils.CleanTextFixedPoints | utils.py:36-38 | cleaning leaves a string unchanged exactly when it has no control character |
| Utils.CleanTextIdempotent | utils.py:38-41 | cleaning twice is cleaning once, so the second clean inside `split_text` is harmless |
| Utils.SplitText | utils.py:40-47 | the chunks concatenate to the cleaned text; each is non-empty and at most `chunk_size - prefix_length` long, all but the last exactly that long; there are none exactly when the cleaned text is empty; their number is the ceiling of length over width; the precondition asks for a positive width unless the cleaned text is empty, because otherwise the source loop never ends |
| Utils.ChunkingUnique | utils.py:43-46 | two chunkings of the same text at the same width are equal |
| Utils.HandoutSectionsCounts | utils.py:25-32 | every `"\n\n"` section contributes exactly one rule, and its paragraphs are the body text |
| Utils.ParagraphsOfSections | utils.py:24-30 | the paragraphs of sections rejoined by blank lines are the paragraphs of each section in turn |
| Utils.HandoutSection | utils.py:25-32 | one `"\n\n"` section's paragraphs followed by a rule and spacer, whatever the section holds; HandoutSectionsCounts states its counts |
| Utils.HandoutPlan | utils.py:23-32 | the title, then every `"\n\n"` section in turn; HandoutPlanFrame and HandoutPlanCounts state what it holds |
| Utils.HandoutPlanFrame | utils.py:23-32 | the plan opens with the title and its 12-point spacer and ends with a rule and its 8-point spacer, even after the last section |
| Utils.HandoutPlanCounts | utils.py:23-32 | the plan holds one rule more than the text has `"\n\n"` separators, and its body paragraphs are the non-blank stripped lines of the whole text, in order |
| Layout.NonBlankTrimmed | utils.py:26-30 | every kept paragraph is non-empty with no whitespace at either end |
| Layout.ParagraphElementsShape | utils.py:28-30 | the i-th paragraph appears as a body paragraph at position 2i followed by a 4-point spacer |
| Layout.SectionBlockContents | project.py:101-105 | a section's elements list exactly its paragraphs as body text and contain no rule |
| Layout.ParagraphsConcat | utils.py:26-28 | cutting at newlines treats two texts joined by a newline as the lines of each |
| Layout.ParagraphsStrip | project.py:101-103 | stripping a section before cutting it into lines changes none of its paragraphs |
| Strings.Strip | project.py:63 | the stripped string is the infix after the leading whitespace run, with only whitespace cut at both ends and a non-space character at each end |
| Strings.SplitJoin | utils.py:24 | joining the pieces of `split` with the separator gives back the string |
| Strings.SplitLeftmost | project.py:62 | no piece contains the separator, and each cut is at the leftmost occurrence |
| Strings.SplitLength | project.py:98 | `split` yields one piece more than `count` finds occurrences |
| Strings.SplitConcat | project.py:65 | a separator placed between two strings, with no occurrence starting in the first, is cut there and only there |
| Strings.SplitConcatChar | project.py:62 | splitting on one character cuts at every occurrence of it |
| Strings.Split | utils.py:24 | `str.split` on a non-empty separator, always at least one piece; SplitJoin, SplitLeftmost and SplitLength pin it down |
| Strings.Join | project.py:65 | `sep.join(parts)`; SplitJoin states that it undoes Split |
| Strings.Count | project.py:98 | the non-overlapping occurrences of `sub` fit in the string, and a positive count means `sub` occurs; SplitLength ties it to Split |
| Strings.Replace | chatbot.py:13 | `str.replace` as the join of the pieces around each occurrence; ReplaceAbsent states that it changes nothing when the target is absent |
| Strings.IsSpace | project.py:63 | the 29 code points `str.isspace()` accepts, also the class `\s` matches; Strip and LeadingSpace cut exactly these |
| Strings.Lower | project.py:118 | ASCII `str.lower`, each character lowered on its own, as a plain definition; Project.PdfNameAnyCase states what lowering then testing `.pdf` accepts |
| Strings.ReplaceAbsent | chatbot.py:13 | replacing a string that does not occur changes nothing |
| Strings.ReplaceLeading | chatbot.py:13 | removing every occurrence of a string from text that starts with it is removing them from the rest |
| Strings.ReplaceKeepsPrefix | chatbot.py:13 | a prefix in which no occurrence starts survives the removal unchanged |
| Markdown.CloseFromSpec | project.py:49 | the lazy group stops at the first closing delimiter and gives up at a newline or the end |
| Markdown.PairAtSpec | project.py:49 | a delimited span found at a position is a match of `d(.*?)d`, and none is found only when there is no such match |
| Markdown.PairMatchUnique | project.py:49 | the lazy group admits one match only, the shortest |
| Markdown.PairRewrite | project.py:49-52 | `re.sub(d(.*?)d, open\1close, s)` scanning left to right; PairAtSpec, PairRewriteNoMatch, PairRewritePassThrough and the wraps lemmas state what it does |
| Markdown.Bold | project.py:49 | the bold rewrite, `PairRewrite` with `**` and `<b>`/`</b>`; BoldWraps, BoldUnpaired and BoldNotAcrossLines state what it does |
| Markdown.Code | project.py:52 | the inline-code rewrite, `PairRewrite` with a backtick and the Courier font tag; CodeWraps states what it does |
| Markdown.PairRewriteNoMatch | project.py:49-52 | text where no span starts anywhere is left unchanged |
| Markdown.PairRewritePassThrough | project.py:49-52 | text without the delimiter's first character is copied as is, and the rewrite resumes after it |
| Markdown.BoldWraps | project.py:49 | `**x**`, with `x` free of asterisks and newlines, becomes `<b>x</b>` and the rewrite continues after it |
| Markdown.CodeWraps | project.py:52 | `` `x` ``, with `x` free of backticks and newlines, becomes the Courier font tag around `x` |
| Markdown.BoldUnpaired | project.py:49 | a `**` followed only by text free of asterisks has no partner and is left as is |
| Markdown.BoldNotAcrossLines | project.py:49 | a bold span does not reach across a newline: the opening `**` stays and the next line is rewritten on its own |
| Markdown.LastLineEndSpec | project.py:55 | the trailing `\s*` gives back characters until `$` holds at the last line boundary it reached |
| Markdown.RuleStartForced | project.py:55 | the dashes of any rule match start right after the leading whitespace run |
| Markdown.RuleAt | project.py:55 | a rule match at a line start, when found, covers at least the three dashes and stays inside the text; RuleAtSpec ties it to the match the regular expression finds |
| Markdown.RuleAtSpec | project.py:55 | the rule scanner finds a match exactly when one exists, and the one with the longest trailing whitespace |
| Markdown.HrRewriteNoMatch | project.py:55 | where no rule matches at any line start the text is unchanged |
| Markdown.HrRewriteAbsent | project.py:55 | text without `---` is unchanged by the rule rewrite |
| Markdown.HrRewritePassThrough | project.py:55 | text with no `---` run, ending in a non-space character, passes through unchanged when a line break or the end follows it, and the rewrite resumes after it off a line start |
| Markdown.HrRuleLineMatch | project.py:55 | on a line of whitespace, `---` and whitespace, the match ends just before the line break |
| Markdown.HrRuleLine | project.py:55 | a `---` line and the blank lines around it become one `<hr/>` between the surrounding text's line breaks |
| Markdown.HrLineAlone | project.py:55 | a text that is only a rule line becomes a single `<hr/>` |
| Markdown.HrRewrite | project.py:55 | the MULTILINE rule rewrite, trying a match only at line starts; HrRewriteNoMatch, HrRewriteAbsent and HrRuleLine state what it does |
| Markdown.MarkdownToPdf | project.py:47-57 | bold, then inline code, then rule lines, in the source's order; CodeAroundBold, MarkdownRuleSwallowsBlankLines and MarkdownToPdfUnchanged state what it does |
| Markdown.InlineIdentity | project.py:49-52 | text without asterisks or backticks is unchanged by the bold and code rewrites |
| Markdown.CodeAroundBold | project.py:49-52 | because bold runs first, `` `**x**` `` ends up as the font tag wrapping `<b>x</b>` |
| Markdown.MarkdownRuleSwallowsBlankLines | project.py:47-57 | `x\n\n---\n\ny` comes out of `markdown_to_pdf` as `x\n<hr/>\ny`, so both blank lines are gone |
| Markdown.MarkdownToPdfUnchanged | project.py:47-57 | text with no bold span, no code span and no rule line is returned unchanged |
| Project.ReviewGate | project.py:118-122 | the review proceeds exactly when the name ends in a dot and `p`, `d`, `f` in any case; otherwise the user gets the invalid-file notice |
| Project.PdfNameAnyCase | project.py:118 | `filename.lower().endswith(".pdf")` holds exactly for names ending in `.pdf` in any mix of case |
| Project.LineItems | project.py:63-66 | the items of one line: none when it is blank, else its stripped non-blank `". "` pieces; LineItemsShape states their shape |
| Project.SplitReviewerText | project.py:60-67 | the items of each line in turn; SplitReviewerTextItems, SplitReviewerTextLines, SplitReviewerTextBlank and SplitReviewerTextJoin state what it returns |
| Project.SplitReviewerTextItems | project.py:60-67 | every item is non-empty, has no whitespace at either end, and contains no newline and no `". "` |
| Project.LineItemsShape | project.py:63-66 | every item of one line is a trimmed single sentence |
| Project.SplitReviewerTextLines | project.py:60-67 | lines are split independently and in order: the items of `x\ny` are those of `x` followed by those of `y` |
| Project.SplitReviewerTextBlank | project.py:60-67 | blank text, blank lines included, yields no item |
| Project.SplitReviewerTextJoin | project.py:60-67 | sentences joined by `". "` on one line are split back into exactly those sentences |
| Project.SplitSentences | project.py:65 | splitting sentences joined by `". "` gives them back, even when a sentence ends in a full stop |
| Project.ReviewerSectionBlock | project.py:101-102 | stripping a section first yields the same elements as not stripping it |
| Project.ReviewerSections | project.py:99-109 | each section's paragraphs with a rule and spacer between consecutive sections only; ReviewerSectionsCounts and HandoutHasTrailingRule state its counts |
| Project.ReviewerPlan | project.py:90-109 | the title, then the sections of the rewritten text cut at `<hr/>`; ReviewerPlanCounts, ReviewerPlanVersusHandout and ReviewerPlanOfRuleLine state what it holds |
| Project.ReviewerSectionsCounts | project.py:98-109 | the sections hold one rule fewer than there are sections, and the body text is every section's paragraphs in turn |
| Project.HandoutHasTrailingRule | project.py:105-109 | the utils.py plan of the same sections is this plan plus one final rule and spacer |
| Project.ReviewerPlanCounts | project.py:90-109 | the plan opens with the title; it holds one rule per `<hr/>` in the rewritten text, a literal `<hr/>` from the input included; its body paragraphs are those of the `<hr/>` sections in turn |
| Project.ReviewerPlanVersusHandout | project.py:90-109 | the reviewer plan followed by a rule and spacer is the utils.py plan of the same sections |
| Project.ReviewerPlanOfRuleLine | project.py:47-109 | a `---` line between blank lines splits the reviewer into two sections with one rule between them and none after the second |
| Game.ChooseNewWord | game.py:16-21 | the old current word becomes the previous word; the new word is one of the five and is returned; nothing else changes |
| Game.EveryWordCanBeChosen | game.py:19-20 | every word, the current one included, can be drawn |
| Game.PurgeMessages | game.py:34-38 | the kept messages are exactly the pinned ones reached and the deleted ones exactly the unpinned ones, each in their original newest-first order; the remembered message is the last pinned one, or the earlier one when none is pinned |
| Game.WherePartition | game.py:35-38 | every message the purge reaches is either kept or deleted, never both and never lost |
| Game.PurgeKeepsRemembered | game.py:35-36 | a remembered pinned message is never forgotten, and any pinned message seen is remembered |
| Game.WindowSize | game.py:34 | `channel.history(limit=100)` yields the newest 100 messages, or all of them when there are fewer |
| Game.Reached | game.py:34-39 | the purge handles the messages of the window before the point where an exception stops it, and all of them when none does |
| Game.PurgeChannel | game.py:33-40 | the channel afterwards is the pinned messages the purge reached, in place and in order, followed by every message from where it stopped; it is shorter than before by exactly the unpinned messages reached; the remembered pinned message is the last one reached, or is unchanged when none was reached |
| Game.PurgeSparesOlderMessages | game.py:34 | messages older than the newest 100 are never touched and stay at the end, in order |
| Game.PurgeClearsWindow | game.py:34-38 | when nothing raises, every unpinned message of the window is deleted and the window is left holding its pinned messages only, in order |
| Game.ResetGame | game.py:25-48 | an unresolved channel leaves everything unchanged and sends nothing; otherwise the score tables are emptied, the old word becomes the previous word, a new word is chosen, the new-word notice is sent, and yesterday's word is announced exactly when a pinned message is remembered; the channel keeps the pinned messages the purge reached, then everything from where it stopped; the remembered pinned message is the last one reached, or is left as it was when the purge reached none |
| Game.FirstResetAnnouncesNone | game.py:45-48 | the first reset ever, from the initial globals, when its purge meets a pinned message, announces yesterday's word as `None` |
| Game.SecondResetNamesFirstWord | game.py:45-48 | the reset after one that remembered a pinned message announces the word the earlier reset chose |
| Game.PinnedResetNamesPreviousWord | game.py:34-48 | a reset whose purge meets a pinned message announces the word the reset before it chose, even when that reset met no pinned message |
| Game.HandleGameMessage | game.py:51-79 | messages from bots or from other channels are not handled; in the game channel the message is handled unless an exception the handler does not catch escapes |
| Game.HandledIffGameChannel | game.py:53-79 | with forbidden or missing-message errors only, the result is True exactly for a non-bot author in the game channel, as if nothing had failed |
| Chatbot.Decimal | chatbot.py:13 | `str(id)`: a non-empty string of digits denoting `id`, with no leading zero except for `"0"` itself |
| Chatbot.DecimalUnique | chatbot.py:13 | any digit string without a leading zero that denotes `n` is `Decimal(n)`, so it is the one spelling `str` produces |
| Chatbot.Mention | chatbot.py:13 | the `<@id>` spelling is the id's digits plus three characters, with its only `<` at the front |
| Chatbot.NicknameMention | chatbot.py:13 | the `<@!id>` spelling is the id's digits plus four characters, with its only `<` at the front |
| Chatbot.ExtractPrompt | chatbot.py:12-13 | the prompt is empty or has no whitespace at either end |
| Chatbot.PromptDropsLeadingMention | chatbot.py:12-13 | for any rest of the message, a leading `<@id>` or `<@!id>` is dropped and the prompt is that of the rest |
| Chatbot.PromptAfterMention | chatbot.py:11-13 | when the rest of the message holds no `<`, a leading `<@id>` or `<@!id>` is removed together with the whitespace after it |
| Chatbot.PromptWithoutMention | chatbot.py:12-13 | content with no `<` gives the content stripped |
| Chatbot.NestedMentionSurvives | chatbot.py:13 | removing `<@id>` from `<@<@id>id>` joins a new `<@id>`, which stays in the prompt |
| Chatbot.ReplyText | chatbot.py:16-44 | the answer, no-response, credit-limit and error texts all start with the author's mention and a space |
| Chatbot.FinalReply | chatbot.py:35-44 | non-empty content gives the answer; missing or empty content gives the no-response reply; an exception whose text contains `402` gives the credit-limit reply; any other exception gives the error reply with its text |
| Chatbot.FinalReplyAddressed | chatbot.py:37-44 | every edited reply starts with the author's mention and a space |
| Chatbot.CreditLimitOnAny402 | chatbot.py:41-42 | any exception text with `402` anywhere in it is reported as the credit limit |
| Chatbot.HandleChatbotMessage | chatbot.py:3-46 | the message is handled exactly when the bot user exists and is mentioned, and then True is returned; otherwise nothing is replied; an empty prompt gets only the usage hint; a non-empty prompt gets the thinking reply edited into the final reply |
| Chatbot.ModelAskedIffPrompt | chatbot.py:12-30 | the model is asked exactly when the bot is mentioned and the extracted prompt is non-empty, and it is asked that prompt |
| Chatbot.BareMentionGetsHint | chatbot.py:12-17 | a message that is only a mention of the bot, plus whitespace, gets the usage hint |

## Left out

- Discord, the model APIs, PyPDF2 and ReportLab are foreign I/O and are not modelled. This covers sending, editing and deleting messages, DMs, `extract_pdf_text` in both files, saving and removing files, and building the PDF. Only the element plans and the decisions that lead to these calls are modelled.
- Steps of `/review` after the filename check (project.py:124-174) are not modelled. They are a file save, an external model call and a PDF upload.
- `tasks.loop(hours=24)`, async scheduling and `setup_game`'s `is_running` check are not modelled. They concern timing, not logic.
- main.py is not part of this model. It wires a model call into `clean_text` and `split_text`, and those are covered.
- `random.choice` is modelled as an arbitrary valid index `pick`. Its distribution is not modelled.
- `print` calls to the console are dropped.
- Strings.Lower: only ASCII letters are lowered. No other character lowers to `.`, `p`, `d` or `f`, so the `.pdf` check is exact.
- Game.Round: the score tables are modelled as maps of guessed shape. The shown code only ever empties them.
- Game.PurgeChannel: any exception during the purge is modelled as a stop position. This covers a failed delete and a failed fetch. The message history is taken newest first, which is Discord's default order.
- Game.ResetGame: a failure of `channel.send` is not modelled. It would end the task after the state was already changed.
- Game.HandleGameMessage: the DM texts are not modelled. How many DMs were sent before a forbidden error is not modelled either.
- Chatbot.HandleChatbotMessage: `mentioned_in` is modelled as an input, because Discord decides it.
- Chatbot.HandleChatbotMessage: exceptions raised by `message.reply` are not modelled.
- Chatbot.HandleChatbotMessage: when an `edit` inside the `try` raises, the error is reported by a second edit. This path is not modelled.
- Utils.SplitText: a non-empty cleaned text with `chunk_size <= prefix_length` is excluded by the precondition. In that case the source loop never ends.

=== FILE: chatbot.dfy ===
/**
  chatbot.py: whether a message is one the bot answers, the prompt it
  extracts from it, and the reply it ends up showing for each outcome of
  the model call. The model call itself is an input.
 */
module Chatbot {
  import opened Wrappers
  import opened Strings

  // -----------------------------------------------------------------------
  // Prompt extraction

  /** The number a string of decimal digits denotes, most significant
      first. */
  function DigitsValue(s: string): nat
    requires forall i :: 0 <= i < |s| ==> '0' <= s[i] <= '9'
  {
    if |s| == 0 then 0
    else DigitsValue(s[..|s| - 1]) * 10 + (s[|s| - 1] - '0') as nat
  }

  /** Python's `str()` of a non-negative integer: its decimal digits, with
      no leading zero except for zero itself. */
  function Decimal(n: nat): (r: string)
    ensures |r| > 0
    ensures forall i :: 0 <= i < |r| ==> '0' <= r[i] <= '9'
    ensures DigitsValue(r) == n
    ensures n > 0 ==> r[0] != '0'
    ensures n == 0 ==> r == "0"
    decreases n
  {
    var d := ['0' + (n % 10) as char];
    if n < 10 then d
    else
      var r := Decimal(n / 10) + d;
      assert r[..|r| - 1] == Decimal(n / 10);
      r
  }

  /** `Decimal` is the only spelling of a number in digits without a
      leading zero: any such string denoting `n` is `Decimal(n)`. */
  lemma {:induction false} DecimalUnique(s: string, n: nat)
    requires |s| > 0 && forall i :: 0 <= i < |s| ==> '0' <= s[i] <= '9'
    requires |s| == 1 || s[0] != '0'
    requires DigitsValue(s) == n
    ensures s == Decimal(n)
    decreases |s|
  {
    if |s| > 1 {
      var init := s[..|s| - 1];
      var last := (s[|s| - 1] - '0') as nat;
      assert DigitsValue(s) == DigitsValue(init) * 10 + last;
      assert n / 10 == DigitsValue(init) && n % 10 == last;
      assert init[0] == s[0];
      LeadingDigitPositive(init);
      DecimalUnique(init, n / 10);
      assert s == init + [s[|s| - 1]];
    }
  }

  /** Digits led by a non-zero digit denote a positive number. */
  lemma {:induction false} LeadingDigitPositive(s: string)
    requires |s| > 0 && forall i :: 0 <= i < |s| ==> '0' <= s[i] <= '9'
    requires s[0] != '0'
    ensures DigitsValue(s) > 0
    decreases |s|
  {
    if |s| > 1 {
      assert s[..|s| - 1][0] == s[0];
      LeadingDigitPositive(s[..|s| - 1]);
    }
  }

  /** The two ways a message mentions the bot user `id`. */
  function Mention(id: nat): (r: string)
    ensures |r| == |Decimal(id)| + 3
    ensures r[0] == '<' && Lacks(r[1..], '<')
  {
    var r := "<@" + Decimal(id) + ">";
    assert r[1..] == "@" + Decimal(id) + ">";
    r
  }

  function NicknameMention(id: nat): (r: string)
    ensures |r| == |Decimal(id)| + 4
    ensures r[0] == '<' && Lacks(r[1..], '<')
  {
    var r := "<@!" + Decimal(id) + ">";
    assert r[1..] == "@!" + Decimal(id) + ">";
    r
  }

  /** The prompt: every `<@id>` removed, then every `<@!id>`, then the
      whitespace at both ends. */
  function ExtractPrompt(content: string, id: nat): (r: string)
    ensures r == [] || (!IsSpace(r[0]) && !IsSpace(r[|r| - 1]))
  {
    Strip(Replace(Replace(content, Mention(id), ""), NicknameMention(id), ""))
  }

  /** A leading mention of the bot, in either form, is dropped: whatever
      follows it, the prompt is the prompt of the rest. */
  lemma PromptDropsLeadingMention(id: nat, q: string)
    ensures ExtractPrompt(Mention(id) + q, id) == ExtractPrompt(q, id)
    ensures ExtractPrompt(NicknameMention(id) + q, id) == ExtractPrompt(q, id)
  {
    var m := Mention(id);
    var n := NicknameMention(id);
    ReplaceLeading(m, q);
    assert !StartsWith(n + q, m) by {
      assert (n + q)[2] == '!';
      assert m[2] == Decimal(id)[0];
    }
    ReplaceKeepsPrefix(n, q, m);
    ReplaceLeading(n, Replace(q, m, ""));
  }

  /** So a leading mention followed by text with no other `<` leaves that
      text, stripped. */
  lemma PromptAfterMention(id: nat, q: string)
    requires Lacks(q, '<')
    ensures ExtractPrompt(Mention(id) + q, id) == Strip(q)
    ensures ExtractPrompt(NicknameMention(id) + q, id) == Strip(q)
  {
    PromptDropsLeadingMention(id, q);
    PromptWithoutMention(q, id);
  }

  /** Without a `<` there is no mention to remove: the prompt is the
      content stripped. */
  lemma PromptWithoutMention(content: string, id: nat)
    requires Lacks(content, '<')
    ensures ExtractPrompt(content, id) == Strip(content)
  {
    LacksFirstChar(content, Mention(id));
    ReplaceAbsent(content, Mention(id), "");
    LacksFirstChar(content, NicknameMention(id));
    ReplaceAbsent(content, NicknameMention(id), "");
  }

  lemma DigitsLackBracket(d: string)
    requires forall i :: 0 <= i < |d| ==> '0' <= d[i] <= '9'
    ensures Lacks(d, '<')
  {
  }

  /** Each replace is a single pass, so removing one mention can join the
      text around it into a new one, which survives into the prompt. */
  lemma NestedMentionSurvives(id: nat)
    ensures ExtractPrompt("<@" + Mention(id) + Decimal(id) + ">", id) == Mention(id)
  {
    var m := Mention(id);
    var s := "<@" + m + Decimal(id) + ">";
    NestedMentionJoined(id);
    assert Replace(m, NicknameMention(id), "") == m by {
      TooShortContainsNothing(m, NicknameMention(id));
      ReplaceAbsent(m, NicknameMention(id), "");
    }
    assert Strip(m) == m by {
      assert m[0] == '<' && m[|m| - 1] == '>';
      StripTrimmed(m);
    }
  }

  /** The first replace in a nested mention joins the pieces around the
      inner one into a new mention. */
  lemma NestedMentionJoined(id: nat)
    ensures Replace("<@" + Mention(id) + Decimal(id) + ">", Mention(id), "") == Mention(id)
  {
    NestedMentionSplit(id);
    var parts := ["<@", Decimal(id) + ">"];
    assert Join(parts, "") == parts[0] + "" + Join(parts[1..], "");
    assert parts[1..] == [Decimal(id) + ">"];
  }

  /** The cuts of the first replace in a nested mention. */
  lemma NestedMentionSplit(id: nat)
    ensures Split("<@" + Mention(id) + Decimal(id) + ">", Mention(id)) == ["<@", Decimal(id) + ">"]
  {
    var m := Mention(id);
    var d := Decimal(id);
    var s := "<@" + m + d + ">";
    var tail := d + ">";
    assert Lacks(tail, '<') by {
      DigitsLackBracket(d);
      LacksAppend(d, ">", '<');
    }
    LacksFirstChar(tail, m);
    SplitWithout(tail, m);
    assert s[2..] == m + tail;
    assert (m + tail)[|m|..] == tail;
    SplitAtSep(s[2..], m);
    assert Split(s[2..], m) == ["", tail];
    assert s[1..][1..] == s[2..];
    assert s[1] == '@' && m[0] == '<';
    assert !StartsWith(s[1..], m);
    SplitAtOther(s[1..], m);
    assert s[1..][0] == '@' && ['@'] + "" == "@";
    assert Split(s[1..], m) == [['@'] + "", tail];
    assert s[2] == '<' && m[2] == d[0];
    assert !StartsWith(s, m);
    SplitAtOther(s, m);
    assert Split(s, m) == [[s[0]] + "@", tail];
    assert [s[0]] + "@" == "<@";
  }

  // -----------------------------------------------------------------------
  // Replies

  const UsageHintText: string := "Hi! Mention me like: `@Dr. Ron what is photosynthesis?`"
  const ThinkingText: string := "Doc Ron is thinking..."
  const CreditLimitCode: string := "402"

  /** How the model call ended: with the content of its first choice (none
      when there is no choice or no content), or with an exception whose
      text is `error`. */
  datatype ModelOutcome = Completed(content: Option<string>) | Failed(error: string)

  /** The replies the handler can show. */
  datatype Reply =
    | UsageHint
    | Thinking
    | Answer(text: string)
    | NoResponse
    | CreditLimit
    | ErrorReply(detail: string)

  /** The text of a reply, `mention` being the author's mention. */
  function ReplyText(reply: Reply, mention: string): (r: string)
    ensures !reply.UsageHint? && !reply.Thinking? ==> StartsWith(r, mention + " ")
  {
    match reply
    case UsageHint => UsageHintText
    case Thinking => ThinkingText
    case Answer(t) => mention + " " + t
    case NoResponse => mention + " \U{274C} No response from model."
    case CreditLimit => mention + " \U{274C} Monthly credit limit reached."
    case ErrorReply(d) => mention + " \U{274C} Error: " + d
  }

  /** The reply the thinking message is edited into, for each outcome. */
  function FinalReply(outcome: ModelOutcome): (r: Reply)
    ensures r.Answer? <==> outcome.Completed? && outcome.content.Some? && outcome.content.value != ""
    ensures r.Answer? ==> r.text == outcome.content.value
    ensures r == NoResponse <==> outcome.Completed? && (outcome.content.None? || outcome.content.value == "")
    ensures r == CreditLimit <==> outcome.Failed? && Contains(outcome.error, CreditLimitCode)
    ensures r.ErrorReply? <==> outcome.Failed? && !Contains(outcome.error, CreditLimitCode)
    ensures r.ErrorReply? ==> r.detail == outcome.error
  {
    match outcome
    case Completed(content) =>
      if content.Some? && content.value != "" then Answer(content.value) else NoResponse
    case Failed(e) =>
      if Contains(e, CreditLimitCode) then CreditLimit else ErrorReply(e)
  }

  /** Every edited reply is addressed to the author. */
  lemma FinalReplyAddressed(outcome: ModelOutcome, mention: string)
    ensures StartsWith(ReplyText(FinalReply(outcome), mention), mention + " ")
  {
    var t := ReplyText(FinalReply(outcome), mention);
    assert t[..|mention| + 1] == mention + " ";
  }

  /** Any error text with `402` in it, even inside a longer number, is
      reported as the credit limit. */
  lemma CreditLimitOnAny402(before: string, after: string)
    ensures FinalReply(Failed(before + CreditLimitCode + after)) == CreditLimit
  {
    var e := before + CreditLimitCode + after;
    assert e[|before|..][..3] == CreditLimitCode;
    ContainsSuffix(e, |before|, CreditLimitCode);
  }

  // -----------------------------------------------------------------------
  // handle_chatbot_message

  /** What the handler did: the value it returns, the prompt it sent to the
      model (if it called the model) and the replies shown, in order: a
      reply is either the usage hint, or the thinking message and what it
      is edited into. */
  datatype Handling = Handling(handled: bool, prompt: Option<string>, replies: seq<Reply>)

  /** `handle_chatbot_message`: `botUser` is the id of the bot's own user
      (none before login), `mentioned` whether the message mentions it,
      and `outcome` how the model call ends. */
  function HandleChatbotMessage(botUser: Option<nat>, mentioned: bool, content: string, outcome: ModelOutcome): (r: Handling)
    ensures r.handled <==> botUser.Some? && mentioned
    ensures !r.handled ==> r.prompt.None? && r.replies == []
    ensures r.prompt.Some? ==> r.prompt.value != "" && r.handled
    ensures r.handled ==> |r.replies| > 0
    ensures r.replies == [UsageHint] <==> r.handled && r.prompt.None?
    ensures r.prompt.Some? ==> r.replies == [Thinking, FinalReply(outcome)]
  {
    if botUser.None? || !mentioned then Handling(false, None, [])
    else
      var prompt := ExtractPrompt(content, botUser.value);
      if prompt == "" then Handling(true, None, [UsageHint])
      else Handling(true, Some(prompt), [Thinking, FinalReply(outcome)])
  }

  /** The model is asked exactly when the bot is mentioned and something is
      left once the mentions and surrounding whitespace are gone; it is
      asked that text. */
  lemma ModelAskedIffPrompt(botUser: Option<nat>, mentioned: bool, content: string, outcome: ModelOutcome)
    ensures var r := HandleChatbotMessage(botUser, mentioned, content, outcome);
      r.prompt.Some? <==> botUser.Some? && mentioned && ExtractPrompt(content, botUser.value) != ""
    ensures var r := HandleChatbotMessage(botUser, mentioned, content, outcome);
      r.prompt.Some? ==> r.prompt.value == ExtractPrompt(content, botUser.value)
  {
  }

  /** A message that is nothing but a mention of the bot gets the usage
      hint. */
  lemma BareMentionGetsHint(id: nat, w: string, outcome: ModelOutcome)
    requires Blank(w)
    ensures HandleChatbotMessage(Some(id), true, Mention(id) + w, outcome) == Handling(true, None, [UsageHint])
  {
    assert Lacks(w, '<') by {
      forall i | 0 <= i < |w|
        ensures w[i] != '<'
      {
        assert IsSpace(w[i]);
      }
    }
    PromptAfterMention(id, w);
    StripBlank(w);
  }
}

=== FILE: game.dfy ===
/**
  game.py: the word round kept in module globals, the daily reset that
  purges the game channel and picks a new word, and the routing decision
  for messages typed into the game channel.
 */
module Game {
  import opened Wrappers
  import Strings

  const GameChannelId: int := 1409106619689599077

  /** The words `choose_new_word` picks from. */
  const Words: seq<string> := ["apple", "banana", "cherry", "dragonfruit", "elderberry"]

  /** How many of the most recent messages the reset examines. */
  const HistoryLimit: nat := 100

  type UserId = int

  /** A message of the game channel, as far as the reset looks at it. */
  datatype Message = Message(id: int, pinned: bool)

  /** The module globals of game.py. The shown code only ever empties the
      two score tables, so the shape of their entries is immaterial. */
  datatype Round = Round(
    current: Option<string>,
    previous: Option<string>,
    leaderstats: map<UserId, int>,
    wordLeaderboards: map<string, seq<UserId>>,
    pinnedMessage: Option<Message>)

  /** The globals as the module defines them at import. */
  const InitialRound: Round := Round(None, None, map[], map[], None)

  // -----------------------------------------------------------------------
  // choose_new_word

  /** `choose_new_word`, with `random.choice` given as the index `pick` it
      draws: the current word is retired to `previous` and `Words[pick]`
      becomes current and is returned. */
  function ChooseNewWord(st: Round, pick: nat): (r: (Round, string))
    requires pick < |Words|
    ensures r.1 in Words
    ensures r.0.previous == st.current
    ensures r.0.current == Some(r.1)
    ensures r.0.leaderstats == st.leaderstats && r.0.wordLeaderboards == st.wordLeaderboards
    ensures r.0.pinnedMessage == st.pinnedMessage
  {
    var w := Words[pick];
    (st.(previous := st.current, current := Some(w)), w)
  }

  /** Every word can be drawn, the current one included: nothing prevents
      a repeat. */
  lemma EveryWordCanBeChosen(st: Round, w: string)
    requires w in Words
    ensures exists pick :: 0 <= pick < |Words| && ChooseNewWord(st, pick).1 == w
  {
    var pick :| 0 <= pick < |Words| && Words[pick] == w;
    assert ChooseNewWord(st, pick).1 == w;
  }

  // -----------------------------------------------------------------------
  // The channel purge of reset_game

  /** Message `i` is the last pinned one of `msgs`. */
  predicate LastPinnedAt(msgs: seq<Message>, i: int) {
    && 0 <= i < |msgs|
    && msgs[i].pinned
    && (forall j :: i < j < |msgs| ==> !msgs[j].pinned)
  }

  /** The messages of `msgs` whose pin state is `pinned`, in their order.
      Built from the back, independently of the purge loop. */
  function Where(msgs: seq<Message>, pinned: bool): (r: seq<Message>)
    ensures |r| <= |msgs|
    decreases |msgs|
  {
    if |msgs| == 0 then []
    else
      var last := msgs[|msgs| - 1];
      Where(msgs[..|msgs| - 1], pinned) + (if last.pinned == pinned then [last] else [])
  }

  /** The pinned messages of `msgs`, in order. */
  function Pinned(msgs: seq<Message>): seq<Message> {
    Where(msgs, true)
  }

  /** The messages of `msgs` that are not pinned, in order. */
  function Unpinned(msgs: seq<Message>): seq<Message> {
    Where(msgs, false)
  }

  /** Selecting from a concatenation selects from each part. */
  lemma {:induction false} WhereAppend(a: seq<Message>, b: seq<Message>, pinned: bool)
    ensures Where(a + b, pinned) == Where(a, pinned) + Where(b, pinned)
    decreases |b|
  {
    if |b| == 0 {
      assert a + b == a;
    } else {
      var b' := b[..|b| - 1];
      var last := b[|b| - 1];
      assert (a + b)[..|a + b| - 1] == a + b';
      assert (a + b)[|a + b| - 1] == last;
      WhereAppend(a, b', pinned);
    }
  }

  /** Selecting from a non-empty sequence, seen from its first message. */
  lemma WhereCons(msgs: seq<Message>, pinned: bool)
    requires |msgs| > 0
    ensures Where(msgs, pinned) == (if msgs[0].pinned == pinned then [msgs[0]] else []) + Where(msgs[1..], pinned)
  {
    var m := msgs[0];
    assert msgs == [m] + msgs[1..];
    WhereAppend([m], msgs[1..], pinned);
    assert [m][..0] == [];
  }

  /** Every message is either pinned or not: the two selections together
      hold each message exactly as often as `msgs` does. */
  lemma {:induction false} WherePartition(msgs: seq<Message>)
    ensures multiset(Unpinned(msgs)) + multiset(Pinned(msgs)) == multiset(msgs)
    ensures |Unpinned(msgs)| + |Pinned(msgs)| == |msgs|
    decreases |msgs|
  {
    if |msgs| > 0 {
      var init := msgs[..|msgs| - 1];
      var last := msgs[|msgs| - 1];
      WherePartition(init);
      assert msgs == init + [last];
    }
  }

  /** What a purge did: the messages it deleted and those it kept, in
      order, and the pinned message it remembers. */
  datatype Purge = Purge(deleted: seq<Message>, kept: seq<Message>, lastPinned: Option<Message>)

  /** The purge loop over the messages it reaches: pinned ones are kept
      and remembered, the others deleted. `seen` is the pinned message
      remembered before the loop. */
  function PurgeMessages(msgs: seq<Message>, seen: Option<Message>): (r: Purge)
    ensures r.kept == Pinned(msgs) && r.deleted == Unpinned(msgs)
    ensures (forall i :: 0 <= i < |msgs| ==> !msgs[i].pinned) ==> r.lastPinned == seen
    ensures forall i :: LastPinnedAt(msgs, i) ==> r.lastPinned == Some(msgs[i])
    decreases |msgs|
  {
    if |msgs| == 0 then Purge([], [], seen)
    else
      var m := msgs[0];
      var rest := PurgeMessages(msgs[1..], if m.pinned then Some(m) else seen);
      assert msgs == [m] + msgs[1..];
      WhereCons(msgs, true);
      WhereCons(msgs, false);
      LastPinnedInTail(msgs);
      if m.pinned then Purge(rest.deleted, [m] + rest.kept, rest.lastPinned)
      else Purge([m] + rest.deleted, rest.kept, rest.lastPinned)
  }

  /** A last pinned message after the first is the last pinned message of
      the rest; when the first is the last one, no other is pinned. */
  lemma LastPinnedInTail(msgs: seq<Message>)
    requires |msgs| > 0
    ensures forall i :: LastPinnedAt(msgs, i) && i > 0 ==> LastPinnedAt(msgs[1..], i - 1)
    ensures LastPinnedAt(msgs, 0) ==> forall i :: 0 <= i < |msgs[1..]| ==> !msgs[1..][i].pinned
  {
  }

  /** The number of messages the history window holds. */
  function WindowSize(history: seq<Message>): (n: nat)
    ensures n <= |history| && n <= HistoryLimit
    ensures n == |history| || n == HistoryLimit
  {
    if |history| < HistoryLimit then |history| else HistoryLimit
  }

  /** How many messages of the window the purge handles before `stop`, the
      position at which fetching or deleting raises (none when `stop` is
      past the window). */
  function Reached(history: seq<Message>, stop: nat): (n: nat)
    ensures n <= WindowSize(history) && n <= stop
    ensures n == WindowSize(history) || n == stop
  {
    if stop < WindowSize(history) then stop else WindowSize(history)
  }

  /** The purge of a channel whose history, newest first, is `history`:
      the channel afterwards, and what the purge did. The purge deletes
      the unpinned messages it reaches, newest first, and leaves the pinned
      ones where they were. */
  function PurgeChannel(history: seq<Message>, stop: nat, seen: Option<Message>): (r: (seq<Message>, Purge))
    ensures var n := Reached(history, stop);
      && r.0 == Pinned(history[..n]) + history[n..]
      && r.1.deleted == Unpinned(history[..n])
      && |r.0| + |r.1.deleted| == |history|
    ensures var n := Reached(history, stop);
      && ((forall i :: 0 <= i < n ==> !history[i].pinned) ==> r.1.lastPinned == seen)
      && (forall i :: LastPinnedAt(history[..n], i) ==> r.1.lastPinned == Some(history[i]))
  {
    var n := Reached(history, stop);
    var p := PurgeMessages(history[..n], seen);
    WherePartition(history[..n]);
    assert history == history[..n] + history[n..];
    (p.kept + history[n..], p)
  }

  /** Messages older than the window are never touched: they stay at the
      end of the channel, in order. */
  lemma PurgeSparesOlderMessages(history: seq<Message>, stop: nat, seen: Option<Message>)
    ensures Strings.EndsWith(PurgeChannel(history, stop, seen).0, history[WindowSize(history)..])
  {
    var n := Reached(history, stop);
    var w := WindowSize(history);
    var after := PurgeChannel(history, stop, seen).0;
    var kept := Pinned(history[..n]);
    assert history[n..] == history[n..w] + history[w..];
    assert after == (kept + history[n..w]) + history[w..];
  }

  /** Only non-pinned messages of the window are deleted, and when nothing
      raises, every one of them is: the window is left holding its pinned
      messages only. */
  lemma PurgeClearsWindow(history: seq<Message>, stop: nat, seen: Option<Message>)
    requires stop >= WindowSize(history)
    ensures var w := WindowSize(history);
      var r := PurgeChannel(history, stop, seen);
      && r.0 == Pinned(history[..w]) + history[w..]
      && (forall i :: 0 <= i < |Pinned(history[..w])| ==> r.0[i].pinned)
      && (forall i :: 0 <= i < w && !history[i].pinned ==> history[i] in r.1.deleted)
  {
    var w := WindowSize(history);
    var kept := Pinned(history[..w]);
    WhereSound(history[..w], true);
    forall i | 0 <= i < |kept|
      ensures kept[i].pinned
    {
      assert kept[i] in kept;
    }
    WhereComplete(history[..w], false);
    forall i | 0 <= i < w && !history[i].pinned
      ensures history[i] in Unpinned(history[..w])
    {
      assert history[..w][i] == history[i];
    }
  }

  /** Only messages of `msgs` with the selected pin state are selected. */
  lemma {:induction false} WhereSound(msgs: seq<Message>, pinned: bool)
    ensures forall m :: m in Where(msgs, pinned) ==> m in msgs && m.pinned == pinned
    decreases |msgs|
  {
    if |msgs| > 0 {
      var init := msgs[..|msgs| - 1];
      WhereSound(init, pinned);
      forall m | m in init
        ensures m in msgs
      {
        var i :| 0 <= i < |init| && init[i] == m;
        assert msgs[i] == m;
      }
    }
  }

  /** Every message with the selected pin state is selected. */
  lemma {:induction false} WhereComplete(msgs: seq<Message>, pinned: bool)
    ensures forall i :: 0 <= i < |msgs| && msgs[i].pinned == pinned ==> msgs[i] in Where(msgs, pinned)
    decreases |msgs|
  {
    if |msgs| > 0 {
      var init := msgs[..|msgs| - 1];
      WhereComplete(init, pinned);
      forall i | 0 <= i < |msgs| - 1 && msgs[i].pinned == pinned
        ensures msgs[i] in Where(msgs, pinned)
      {
        assert init[i] == msgs[i];
      }
    }
  }

  // -----------------------------------------------------------------------
  // reset_game

  const NewWordNotice: string := "\U{1F389} A new word has been chosen! Guess the word using the button."

  /** Python's `str()` of an optional word: `None` when there is none. */
  function WordText(w: Option<string>): string {
    match w
    case Some(s) => s
    case None => "None"
  }

  /** The announcement of the word the reset retired. */
  function YesterdayNotice(previous: Option<string>): string {
    "\U{1F4CC} Yesterday\U{2019}s word was **" + WordText(previous) + "**"
  }

  /** What a reset leaves behind: the globals, the game channel (absent
      when it cannot be resolved) and the texts sent to it, in order. */
  datatype Reset = Reset(round: Round, channel: Option<seq<Message>>, sent: seq<string>)

  /** `reset_game`: `channel` is the game channel's history, newest first,
      or nothing when the bot cannot resolve the channel; `stop` is where
      the purge raises and `pick` the index `random.choice` draws. */
  function ResetGame(st: Round, channel: Option<seq<Message>>, stop: nat, pick: nat): (r: Reset)
    requires pick < |Words|
    ensures channel.None? ==> r.round == st && r.channel.None? && r.sent == []
    ensures channel.Some? ==>
      && r.channel.Some?
      && r.round.leaderstats == map[] && r.round.wordLeaderboards == map[]
      && r.round.previous == st.current
      && r.round.current == Some(Words[pick])
      && (st.pinnedMessage.Some? ==> r.round.pinnedMessage.Some?)
      && |r.sent| >= 1 && r.sent[0] == NewWordNotice
      && (r.round.pinnedMessage.Some? <==> |r.sent| == 2)
      && (r.round.pinnedMessage.Some? ==> r.sent[1] == YesterdayNotice(st.current))
      && (r.round.pinnedMessage.None? ==> |r.sent| == 1)
    ensures channel.Some? ==>
      var history := channel.value;
      var n := Reached(history, stop);
      && r.channel == Some(Pinned(history[..n]) + history[n..])
      && ((forall i :: 0 <= i < n ==> !history[i].pinned) ==> r.round.pinnedMessage == st.pinnedMessage)
      && (forall i :: LastPinnedAt(history[..n], i) ==> r.round.pinnedMessage == Some(history[i]))
  {
    match channel
    case None => Reset(st, None, [])
    case Some(history) =>
      var (after, purge) := PurgeChannel(history, stop, st.pinnedMessage);
      PurgeKeepsRemembered(history[..Reached(history, stop)], st.pinnedMessage);
      var cleared := st.(leaderstats := map[], wordLeaderboards := map[], pinnedMessage := purge.lastPinned);
      var (next, _) := ChooseNewWord(cleared, pick);
      var notices := if next.pinnedMessage.Some? then [NewWordNotice, YesterdayNotice(next.previous)] else [NewWordNotice];
      Reset(next, Some(after), notices)
  }

  /** A pinned message once remembered is never forgotten by a purge. */
  lemma {:induction false} PurgeKeepsRemembered(msgs: seq<Message>, seen: Option<Message>)
    ensures seen.Some? ==> PurgeMessages(msgs, seen).lastPinned.Some?
    ensures (exists i :: 0 <= i < |msgs| && msgs[i].pinned) ==> PurgeMessages(msgs, seen).lastPinned.Some?
    decreases |msgs|
  {
    if |msgs| > 0 {
      var m := msgs[0];
      PurgeKeepsRemembered(msgs[1..], if m.pinned then Some(m) else seen);
      if exists i :: 0 <= i < |msgs| && msgs[i].pinned {
        var i :| 0 <= i < |msgs| && msgs[i].pinned;
        if i > 0 {
          assert msgs[1..][i - 1].pinned;
        }
      }
    }
  }

  /** The first reset ever, from the initial globals, announces yesterday's
      word as `None` when its purge meets a pinned message, as no word had
      been chosen yet. */
  lemma FirstResetAnnouncesNone(history: seq<Message>, stop: nat, pick: nat, i: int)
    requires pick < |Words|
    requires 0 <= i < Reached(history, stop) && history[i].pinned
    ensures ResetGame(InitialRound, Some(history), stop, pick).sent
         == [NewWordNotice, "\U{1F4CC} Yesterday\U{2019}s word was **None**"]
  {
    var msgs := history[..Reached(history, stop)];
    assert msgs[i].pinned;
    PurgeKeepsRemembered(msgs, None);
    NoWordYet();
  }

  /** A reset whose purge meets a pinned message announces the word the
      reset before it chose, even when that earlier reset met no pinned
      message and none had been remembered. */
  lemma PinnedResetNamesPreviousWord(st: Round, h1: seq<Message>, h2: seq<Message>, s1: nat, s2: nat, p1: nat, p2: nat, i: int)
    requires p1 < |Words| && p2 < |Words|
    requires 0 <= i < Reached(h2, s2) && h2[i].pinned
    ensures var mid := ResetGame(st, Some(h1), s1, p1).round;
      ResetGame(mid, Some(h2), s2, p2).sent == [NewWordNotice, YesterdayNotice(Some(Words[p1]))]
  {
    var mid := ResetGame(st, Some(h1), s1, p1).round;
    var msgs := h2[..Reached(h2, s2)];
    assert msgs[i].pinned;
    PurgeKeepsRemembered(msgs, mid.pinnedMessage);
  }

  lemma NoWordYet()
    ensures YesterdayNotice(None) == "\U{1F4CC} Yesterday\U{2019}s word was **None**"
  {
  }

  /** Two resets in a row whose channels are found: the second announces
      the word the first chose, whenever a pinned message is remembered by
      then. The first reset remembers one when one was remembered before or
      its purge meets one; from then on every reset whose channel is found
      announces. */
  lemma SecondResetNamesFirstWord(st: Round, h1: seq<Message>, h2: seq<Message>, s1: nat, s2: nat, p1: nat, p2: nat)
    requires p1 < |Words| && p2 < |Words|
    requires st.pinnedMessage.Some? || ResetGame(st, Some(h1), s1, p1).round.pinnedMessage.Some?
    ensures var mid := ResetGame(st, Some(h1), s1, p1).round;
      ResetGame(mid, Some(h2), s2, p2).sent == [NewWordNotice, YesterdayNotice(Some(Words[p1]))]
  {
  }

  // -----------------------------------------------------------------------
  // handle_game_message

  /** How an awaited Discord call ended. */
  datatype CallResult = Done | Forbidden | NotFound | OtherError

  /** How the handler ends: it returns whether it handled the message, or
      an exception it does not catch escapes from it. */
  datatype Handling = Returned(handled: bool) | Raised

  /** The message is one the game system takes over: not from a bot, and
      typed in the game channel. */
  predicate GameTakesOver(authorIsBot: bool, channelId: int) {
    !authorIsBot && channelId == GameChannelId
  }

  /** `handle_game_message`: `deletion` is how deleting the message ended
      and `dm` how sending the warning by direct message ended. */
  function HandleGameMessage(authorIsBot: bool, channelId: int, deletion: CallResult, dm: CallResult): (r: Handling)
    ensures !GameTakesOver(authorIsBot, channelId) ==> r == Returned(false)
    ensures GameTakesOver(authorIsBot, channelId) && deletion != OtherError && dm in {Done, Forbidden}
      ==> r == Returned(true)
    ensures r.Raised? <==> GameTakesOver(authorIsBot, channelId) && (deletion == OtherError || dm in {NotFound, OtherError})
  {
    if authorIsBot then Returned(false)
    else if channelId == GameChannelId then
      if deletion == OtherError then Raised
      else if dm == NotFound || dm == OtherError then Raised
      else Returned(true)
    else Returned(false)
  }

  /** The handler reports the message handled exactly when the game takes
      it over, whatever permission errors the deletion and the warning run
      into. */
  lemma HandledIffGameChannel(authorIsBot: bool, channelId: int, deletion: CallResult, dm: CallResult)
    requires deletion in {Done, Forbidden, NotFound} && dm in {Done, Forbidden}
    ensures HandleGameMessage(authorIsBot, channelId, deletion, dm) == Returned(GameTakesOver(authorIsBot, channelId))
    ensures HandleGameMessage(authorIsBot, channelId, deletion, dm) == HandleGameMessage(authorIsBot, channelId, Done, Done)
  {
  }
}

=== FILE: layout.dfy ===
/**
  The document plan both `generate_formatted_pdf` functions hand to the PDF
  builder, as abstract element tokens: what is laid out and in which order,
  not how it is rendered.
 */
module Layout {
  import opened Strings

  datatype Element =
    | Heading(text: string)   // the title paragraph, in the title style
    | Body(text: string)      // a body paragraph
    | Spacer(height: nat)     // `Spacer(1, height)`
    | Rule                    // a full-width horizontal rule

  const TitleText: string := "Study Reviewer"

  /** The title paragraph and the 12-point spacer that open every plan. */
  const Header: seq<Element> := [Heading(TitleText), Spacer(12)]

  /** A rule and the 8-point spacer that follows it. */
  const RuleBreak: seq<Element> := [Rule, Spacer(8)]

  /** Non-empty and without whitespace at either end. */
  predicate Trimmed(p: string) {
    |p| > 0 && !IsSpace(p[0]) && !IsSpace(p[|p| - 1])
  }

  /** A line as the paragraph it yields: none when it is blank, else the
      line stripped. */
  function KeepLine(line: string): seq<string> {
    var p := Strip(line);
    if p == "" then [] else [p]
  }

  /** The stripped lines that are not blank, in order. */
  function NonBlank(lines: seq<string>): seq<string> {
    FlatMap(KeepLine, lines)
  }

  /** Every paragraph kept is non-empty with no whitespace at either end. */
  lemma {:induction false} NonBlankTrimmed(lines: seq<string>)
    ensures forall i :: 0 <= i < |NonBlank(lines)| ==> Trimmed(NonBlank(lines)[i])
    decreases |lines|
  {
    if |lines| > 0 {
      NonBlankTrimmed(lines[1..]);
      var h := KeepLine(lines[0]);
      var t := NonBlank(lines[1..]);
      assert NonBlank(lines) == h + t;
      forall i | 0 <= i < |h + t|
        ensures Trimmed((h + t)[i])
      {
        if i >= |h| { assert (h + t)[i] == t[i - |h|]; }
      }
    }
  }

  /** The paragraphs of one section: its non-blank lines, stripped. */
  function Paragraphs(sec: string): seq<string> {
    NonBlank(Split(sec, "\n"))
  }

  /** One paragraph as a body paragraph followed by a 4-point spacer. */
  function ParagraphPair(p: string): seq<Element> {
    [Body(p), Spacer(4)]
  }

  /** Each paragraph as a body paragraph followed by a 4-point spacer. */
  function ParagraphElements(ps: seq<string>): seq<Element> {
    FlatMap(ParagraphPair, ps)
  }

  /** The elements one section contributes before any rule. */
  function SectionBlock(sec: string): seq<Element> {
    ParagraphElements(Paragraphs(sec))
  }

  /** The text of an element when it is a body paragraph. */
  function BodyText(e: Element): seq<string> {
    if e.Body? then [e.text] else []
  }

  /** The texts of the body paragraphs of a plan, in order. */
  function Bodies(es: seq<Element>): seq<string> {
    FlatMap(BodyText, es)
  }

  /** The number of rules in a plan. */
  function RuleCount(es: seq<Element>): nat
    decreases |es|
  {
    if |es| == 0 then 0 else (if es[0] == Rule then 1 else 0) + RuleCount(es[1..])
  }

  lemma BodiesAppend(a: seq<Element>, b: seq<Element>)
    ensures Bodies(a + b) == Bodies(a) + Bodies(b)
  {
    FlatMapAppend(BodyText, a, b);
  }

  lemma {:induction false} RuleCountAppend(a: seq<Element>, b: seq<Element>)
    ensures RuleCount(a + b) == RuleCount(a) + RuleCount(b)
    decreases |a|
  {
    if |a| == 0 {
      assert a + b == b;
    } else {
      assert (a + b)[0] == a[0];
      assert (a + b)[1..] == a[1..] + b;
      RuleCountAppend(a[1..], b);
    }
  }

  /** The paragraph elements alternate: the i-th paragraph as a body
      paragraph at 2i, a 4-point spacer at 2i + 1. */
  lemma {:induction false} ParagraphElementsShape(ps: seq<string>)
    ensures |ParagraphElements(ps)| == 2 * |ps|
    ensures forall i :: 0 <= i < |ps| ==>
      ParagraphElements(ps)[2 * i] == Body(ps[i]) && ParagraphElements(ps)[2 * i + 1] == Spacer(4)
    decreases |ps|
  {
    if |ps| > 0 {
      ParagraphElementsShape(ps[1..]);
      var t := ParagraphElements(ps[1..]);
      var r := ParagraphPair(ps[0]) + t;
      assert ParagraphElements(ps) == r;
      forall i | 0 <= i < |ps|
        ensures r[2 * i] == Body(ps[i]) && r[2 * i + 1] == Spacer(4)
      {
        if i > 0 {
          assert r[2 * i] == t[2 * (i - 1)];
          assert r[2 * i + 1] == t[2 * (i - 1) + 1];
        }
      }
    }
  }

  /** A section block lists exactly the section's paragraphs as body text
      and holds no rule. */
  lemma {:induction false} SectionBlockContents(ps: seq<string>)
    ensures Bodies(ParagraphElements(ps)) == ps
    ensures RuleCount(ParagraphElements(ps)) == 0
    decreases |ps|
  {
    if |ps| > 0 {
      var pair := ParagraphPair(ps[0]);
      var rest := ParagraphElements(ps[1..]);
      assert ParagraphElements(ps) == pair + rest;
      SectionBlockContents(ps[1..]);
      BodiesAppend(pair, rest);
      RuleCountAppend(pair, rest);
      assert pair[1..] == [Spacer(4)] && pair[1..][1..] == [];
      assert Bodies([Spacer(4)]) == BodyText(Spacer(4)) + Bodies([]) == [];
      assert Bodies(pair) == BodyText(Body(ps[0])) + Bodies([Spacer(4)]);
      assert RuleCount(pair) == 0;
      assert ps == [ps[0]] + ps[1..];
    }
  }

  lemma NonBlankAppend(a: seq<string>, b: seq<string>)
    ensures NonBlank(a + b) == NonBlank(a) + NonBlank(b)
  {
    FlatMapAppend(KeepLine, a, b);
  }

  /** Lines joined by a newline: the paragraphs of each side, in order. */
  lemma ParagraphsConcat(x: string, y: string)
    ensures Paragraphs(x + "\n" + y) == Paragraphs(x) + Paragraphs(y)
  {
    SplitConcatChar(x, '\n', y);
    NonBlankAppend(Split(x, "\n"), Split(y, "\n"));
  }

  /** Leading whitespace, newlines included, adds no paragraph. */
  lemma {:induction false} ParagraphsDropSpace(s: string)
    requires |s| > 0 && IsSpace(s[0])
    ensures Paragraphs(s) == Paragraphs(s[1..])
  {
    assert s == [s[0]] + s[1..];
    if s[0] == '\n' {
      assert StartsWith(s, "\n");
      assert Split(s, "\n") == [""] + Split(s[1..], "\n");
      assert Strip("") == "";
    } else {
      assert !StartsWith(s, "\n");
      var t := Split(s[1..], "\n");
      assert Split(s, "\n") == [[s[0]] + t[0]] + t[1..];
      StripConsSpace(s[0], t[0]);
      assert t == [t[0]] + t[1..];
    }
  }

  lemma NonBlankSnoc(a: seq<string>, z: string)
    ensures NonBlank(a + [z]) == NonBlank(a) + KeepLine(z)
  {
    NonBlankAppend(a, [z]);
    assert [z][1..] == [];
    assert NonBlank([z]) == KeepLine(z) + NonBlank([]);
  }

  /** Trailing whitespace, newlines included, adds no paragraph. */
  lemma ParagraphsDropTrailingSpace(x: string, w: char)
    requires IsSpace(w)
    ensures Paragraphs(x + [w]) == Paragraphs(x)
  {
    var r := Split(x, "\n");
    var n := |r|;
    assert r == r[..n - 1] + [r[n - 1]];
    NonBlankSnoc(r[..n - 1], r[n - 1]);
    if w == '\n' {
      SplitConcatChar(x, '\n', "");
      assert x + [w] + "" == x + [w];
      assert Split("", "\n") == [""];
      NonBlankSnoc(r, "");
      assert KeepLine("") == [];
    } else {
      SplitSnocChar(x, '\n', w);
      NonBlankSnoc(r[..n - 1], r[n - 1] + [w]);
      StripSnocSpace(r[n - 1], w);
    }
  }

  lemma {:induction false} ParagraphsLStrip(s: string)
    ensures Paragraphs(LStrip(s)) == Paragraphs(s)
    decreases |s|
  {
    if |s| > 0 && IsSpace(s[0]) {
      assert LStrip(s) == LStrip(s[1..]);
      ParagraphsDropSpace(s);
      ParagraphsLStrip(s[1..]);
    }
  }

  lemma {:induction false} ParagraphsRStrip(s: string)
    ensures Paragraphs(RStrip(s)) == Paragraphs(s)
    decreases |s|
  {
    if |s| > 0 && IsSpace(s[|s| - 1]) {
      var x := s[..|s| - 1];
      assert RStrip(s) == RStrip(x);
      assert s == x + [s[|s| - 1]];
      ParagraphsDropTrailingSpace(x, s[|s| - 1]);
      ParagraphsRStrip(x);
    } else {
      assert RStrip(s) == s[..|s|] == s;
    }
  }

  /** Stripping a section before cutting it into lines changes none of its
      paragraphs. */
  lemma ParagraphsStrip(s: string)
    ensures Paragraphs(Strip(s)) == Paragraphs(s)
  {
    ParagraphsLStrip(s);
    ParagraphsRStrip(LStrip(s));
  }

  /** The title block holds no rule and no body text. */
  lemma HeaderCounts()
    ensures RuleCount(Header) == 0 && Bodies(Header) == []
  {
    assert Header[1..] == [Spacer(12)] && Header[1..][1..] == [];
    assert Bodies([Spacer(12)]) == BodyText(Spacer(12)) + Bodies([]) == [];
    assert Bodies(Header) == BodyText(Heading(TitleText)) + Bodies([Spacer(12)]) == [];
  }
}

=== FILE: markdown.dfy ===
/**
  `markdown_to_pdf` in project.py: three regular-expression rewrites applied
  in order, each written here as a left-to-right scanner with the matching
  rules of Python's `re.sub`:

    1. `\*\*(.*?)\*\*`            becomes `<b>\1</b>`
    2. `` `(.*?)` ``              becomes `<font face="Courier">\1</font>`
    3. `^\s*---\s*$` (MULTILINE)  becomes `<hr/>`

  `re.sub` tries each position from the left, takes the first match found
  there and resumes after it. In the first two, `.` does not match a newline
  and `*?` tries the shortest group first. In the third, `^` and `$` match at
  line boundaries while `\s` also matches newlines, so a rule may swallow
  blank lines on either side.
 */
module Markdown {
  import opened Wrappers
  import opened Strings

  const BoldOpen: string := "<b>"
  const BoldClose: string := "</b>"
  const CodeOpen: string := "<font face=\"Courier\">"
  const CodeClose: string := "</font>"
  const HrTag: string := "<hr/>"

  // -----------------------------------------------------------------------
  // Delimited spans: `d(.*?)d`

  /** A match of `d(.*?)d` at the start of `s` whose closing delimiter
      begins at `j`: the group `s[|d|..j]` holds no newline and no earlier
      position after the opening delimiter begins a closing one. */
  predicate IsPairMatch(s: string, d: string, j: int) {
    && |d| <= j && j + |d| <= |s|
    && StartsWith(s, d)
    && StartsWith(s[j..], d)
    && Lacks(s[|d|..j], '\n')
    && forall k :: |d| <= k < j ==> !StartsWith(s[k..], d)
  }

  /** The lazy group grown from `j`: the first position where the closing
      delimiter begins, given up at the first newline or the end. */
  function CloseFrom(s: string, d: string, j: nat): (r: Option<nat>)
    requires |d| > 0 && j <= |s|
    ensures r.Some? ==> j <= r.value && r.value + |d| <= |s|
    decreases |s| - j
  {
    if StartsWith(s[j..], d) then Some(j)
    else if j == |s| || s[j] == '\n' then None
    else CloseFrom(s, d, j + 1)
  }

  /** `CloseFrom` finds the first closing delimiter reachable without
      crossing a newline, and finds none only when there is none. */
  lemma {:induction false} CloseFromSpec(s: string, d: string, j: nat)
    requires |d| > 0 && j <= |s|
    ensures CloseFrom(s, d, j).Some? ==>
      var c := CloseFrom(s, d, j).value;
      && StartsWith(s[c..], d)
      && Lacks(s[j..c], '\n')
      && forall k :: j <= k < c ==> !StartsWith(s[k..], d)
    ensures CloseFrom(s, d, j).None? ==>
      forall k :: j <= k <= |s| && Lacks(s[j..k], '\n') ==> !StartsWith(s[k..], d)
    decreases |s| - j
  {
    if !StartsWith(s[j..], d) && j < |s| && s[j] != '\n' {
      CloseFromSpec(s, d, j + 1);
      assert forall k :: j < k <= |s| ==> s[j..k] == [s[j]] + s[j + 1..k];
    }
  }

  /** The match of `d(.*?)d` at the start of `s`, if any: where its closing
      delimiter begins. */
  function PairAt(s: string, d: string): (r: Option<nat>)
    requires |d| > 0
    ensures r.Some? ==> |d| <= r.value && r.value + |d| <= |s|
  {
    if StartsWith(s, d) then CloseFrom(s, d, |d|) else None
  }

  /** `PairAt` finds exactly the match `re` finds at the start of `s`: a
      reported match is one, and when none is reported there is none. */
  lemma PairAtSpec(s: string, d: string)
    requires |d| > 0
    ensures PairAt(s, d).Some? ==> IsPairMatch(s, d, PairAt(s, d).value)
    ensures PairAt(s, d).None? ==> forall j :: !IsPairMatch(s, d, j)
  {
    if StartsWith(s, d) {
      CloseFromSpec(s, d, |d|);
    }
  }

  /** At most one closing position satisfies the match conditions: the
      group is the shortest one. */
  lemma PairMatchUnique(s: string, d: string, j1: int, j2: int)
    requires IsPairMatch(s, d, j1) && IsPairMatch(s, d, j2)
    ensures j1 == j2
  {
  }

  /** `re.sub(d(.*?)d, open\1close, s)` */
  function PairRewrite(s: string, d: string, open: string, close: string): string
    requires |d| > 0
    decreases |s|
  {
    if |s| == 0 then ""
    else match PairAt(s, d)
      case Some(j) => open + s[|d|..j] + close + PairRewrite(s[j + |d|..], d, open, close)
      case None => [s[0]] + PairRewrite(s[1..], d, open, close)
  }

  /** The bold rewrite, project.py line 49. */
  function Bold(s: string): string {
    PairRewrite(s, "**", BoldOpen, BoldClose)
  }

  /** The inline-code rewrite, project.py line 52. */
  function Code(s: string): string {
    PairRewrite(s, "`", CodeOpen, CodeClose)
  }

  /** Where no match starts at any position, the rewrite changes nothing. */
  lemma {:induction false} PairRewriteNoMatch(s: string, d: string, open: string, close: string)
    requires |d| > 0
    requires forall i :: 0 <= i < |s| ==> PairAt(s[i..], d).None?
    ensures PairRewrite(s, d, open, close) == s
    decreases |s|
  {
    if |s| > 0 {
      assert s[0..] == s;
      assert forall i :: 0 <= i < |s| - 1 ==> s[1..][i..] == s[i + 1..];
      PairRewriteNoMatch(s[1..], d, open, close);
      assert s == [s[0]] + s[1..];
    }
  }

  /** Text that holds no character the delimiter starts with passes through
      untouched, whatever follows it. */
  lemma {:induction false} PairRewritePassThrough(x: string, y: string, d: string, open: string, close: string)
    requires |d| > 0 && Lacks(x, d[0])
    ensures PairRewrite(x + y, d, open, close) == x + PairRewrite(y, d, open, close)
    decreases |x|
  {
    if |x| == 0 {
      assert x + y == y;
    } else {
      var s := x + y;
      assert s[0] == x[0] != d[0];
      assert !StartsWith(s, d);
      assert s[1..] == x[1..] + y;
      PairRewritePassThrough(x[1..], y, d, open, close);
    }
  }

  /** A delimited span whose group holds neither a newline nor the
      delimiter's first character is replaced by the tags around the group. */
  lemma PairRewriteWraps(x: string, y: string, d: string, open: string, close: string)
    requires |d| > 0 && Lacks(x, d[0]) && Lacks(x, '\n')
    ensures PairRewrite(d + x + d + y, d, open, close) == open + x + close + PairRewrite(y, d, open, close)
  {
    var s := d + x + d + y;
    var j := |d| + |x|;
    assert s[|d|..j] == x;
    assert s[j..] == d + y;
    assert StartsWith(s[j..], d);
    forall k | |d| <= k < j
      ensures !StartsWith(s[k..], d)
    {
      assert s[k] == x[k - |d|];
    }
    assert IsPairMatch(s, d, j);
    PairAtSpec(s, d);
    PairMatchUnique(s, d, j, PairAt(s, d).value);
    assert s[j + |d|..] == y;
  }

  /** `**x**` with `x` free of `*` and newlines becomes `<b>x</b>`. */
  lemma BoldWraps(x: string, y: string)
    requires Lacks(x, '*') && Lacks(x, '\n')
    ensures Bold("**" + x + "**" + y) == BoldOpen + x + BoldClose + Bold(y)
  {
    PairRewriteWraps(x, y, "**", BoldOpen, BoldClose);
  }

  /** `` `x` `` with `x` free of backticks and newlines becomes a Courier
      font tag around `x`. */
  lemma CodeWraps(x: string, y: string)
    requires Lacks(x, '`') && Lacks(x, '\n')
    ensures Code("`" + x + "`" + y) == CodeOpen + x + CodeClose + Code(y)
  {
    PairRewriteWraps(x, y, "`", CodeOpen, CodeClose);
  }

  /** An opening `**` with no closing `**` anywhere after it is left as it
      is. */
  lemma BoldUnpaired(x: string)
    requires Lacks(x, '*')
    ensures Bold("**" + x) == "**" + x
  {
    var s := "**" + x;
    assert s[2..] == x;
    PairAtSpec(s, "**");
    assert forall j :: !IsPairMatch(s, "**", j) by {
      forall j | 2 <= j && j + 2 <= |s|
        ensures !StartsWith(s[j..], "**")
      {
        assert s[j] == x[j - 2];
      }
    }
    var t := s[1..];
    assert t == "*" + x;
    if |x| > 0 {
      assert t[1] == x[0];
    }
    assert !StartsWith(t, "**");
    assert t[1..] == x;
    assert Bold(s) == [s[0]] + PairRewrite(t, "**", BoldOpen, BoldClose);
    assert PairRewrite(t, "**", BoldOpen, BoldClose) == [t[0]] + Bold(x);
    PairRewritePassThrough(x, "", "**", BoldOpen, BoldClose);
    assert x + "" == x;
    assert Bold("") == "";
  }

  /** A span is never closed across a line break: `**x` followed by a
      newline stays as it is even when a `**` comes on a later line. */
  lemma BoldNotAcrossLines(x: string, y: string)
    requires Lacks(x, '*')
    ensures Bold("**" + x + "\n" + y) == "**" + x + "\n" + Bold(y)
  {
    var s := "**" + x + "\n" + y;
    var t := s[1..];
    var u := x + "\n" + y;
    BoldUnclosedBeforeBreak(x, y);
    PairRewriteCopyStep(s, "**", BoldOpen, BoldClose);
    assert t == "*" + u && t[1..] == u;
    assert PairAt(t, "**").None? by {
      assert t[1] == s[2];
      assert !StartsWith(t, "**");
    }
    PairRewriteCopyStep(t, "**", BoldOpen, BoldClose);
    assert Lacks(x + "\n", '*');
    assert u == (x + "\n") + y;
    PairRewritePassThrough(x + "\n", y, "**", BoldOpen, BoldClose);
    assert [s[0]] == "*" && [t[0]] == "*";
    StarsRegroup(x, Bold(y));
  }

  lemma StarsRegroup(x: string, b: string)
    ensures "**" + x + "\n" + b == "*" + ("*" + ((x + "\n") + b))
  {
  }

  /** `**` opening a line whose rest has no asterisk finds no closing
      delimiter. */
  lemma BoldUnclosedBeforeBreak(x: string, y: string)
    requires Lacks(x, '*')
    ensures PairAt("**" + x + "\n" + y, "**").None?
  {
    var s := "**" + x + "\n" + y;
    var n := 2 + |x|;
    assert s[n] == '\n';
    forall j | 2 <= j <= |s| && Lacks(s[2..j], '\n')
      ensures !StartsWith(s[j..], "**")
    {
      if j < n {
        assert s[j] == x[j - 2];
      }
    }
    CloseFromSpec(s, "**", 2);
    assert CloseFrom(s, "**", 2).None?;
  }

  /** One step of a pair rewrite where no pair starts. */
  lemma PairRewriteCopyStep(s: string, d: string, open: string, close: string)
    requires |d| > 0 && |s| > 0 && PairAt(s, d).None?
    ensures PairRewrite(s, d, open, close) == [s[0]] + PairRewrite(s[1..], d, open, close)
  {
  }

  // -----------------------------------------------------------------------
  // Rule lines: `^\s*---\s*$` in MULTILINE mode

  /** A line boundary for `$`: the end of the text or a newline. */
  predicate LineEnd(s: string, p: int)
    requires 0 <= p <= |s|
  {
    p == |s| || s[p] == '\n'
  }

  /** A match of `\s*---\s*` at the start of `s` (assumed a line start) with
      the dashes at `k` and `$` satisfied at `e`. */
  predicate IsRuleMatch(s: string, k: int, e: int) {
    && 0 <= k && k + 3 <= e <= |s|
    && Blank(s[..k])
    && s[k..k + 3] == "---"
    && Blank(s[k + 3..e])
    && LineEnd(s, e)
  }

  /** The greedy trailing `\s*` giving characters back until `$` holds: the
      last line boundary in `lo..m`. */
  function LastLineEnd(s: string, lo: nat, m: nat): (r: Option<nat>)
    requires lo <= m <= |s|
    ensures r.Some? ==> lo <= r.value <= m
    decreases m
  {
    if LineEnd(s, m) then Some(m)
    else if m == lo then None
    else LastLineEnd(s, lo, m - 1)
  }

  /** `LastLineEnd` finds the last line boundary in `lo..m`, and none only
      when there is none. */
  lemma {:induction false} LastLineEndSpec(s: string, lo: nat, m: nat)
    requires lo <= m <= |s|
    ensures LastLineEnd(s, lo, m).Some? ==>
      && LineEnd(s, LastLineEnd(s, lo, m).value)
      && forall q :: LastLineEnd(s, lo, m).value < q <= m ==> !LineEnd(s, q)
    ensures LastLineEnd(s, lo, m).None? ==> forall q :: lo <= q <= m ==> !LineEnd(s, q)
    decreases m
  {
    if !LineEnd(s, m) && m > lo {
      LastLineEndSpec(s, lo, m - 1);
    }
  }

  /** The leading `\s*` cannot give anything back: a dash is not
      whitespace, so the dashes of any match start right after the
      whitespace run that opens `s`. */
  lemma RuleStartForced(s: string, k: int, e: int)
    requires IsRuleMatch(s, k, e)
    ensures k == LeadingSpace(s)
  {
    assert s[k] == s[k..k + 3][0] == '-';
  }

  /** The match of `^\s*---\s*$` at the start of `s`, if any: where it
      ends. The dashes sit after the leading whitespace run and the match
      ends at the last line boundary the trailing whitespace run reaches. */
  function RuleAt(s: string): (r: Option<nat>)
    ensures r.Some? ==> 3 <= r.value <= |s|
  {
    var k := LeadingSpace(s);
    if StartsWith(s[k..], "---") then
      var a := k + 3;
      LastLineEnd(s, a, a + LeadingSpace(s[a..]))
    else None
  }

  /** `RuleAt` finds the match `re` finds at a line start: the one whose
      trailing whitespace run is longest; and it finds none only when no
      placement of the dashes and no end would match. */
  lemma RuleAtSpec(s: string)
    ensures RuleAt(s).Some? ==>
      && IsRuleMatch(s, LeadingSpace(s), RuleAt(s).value)
      && forall e :: IsRuleMatch(s, LeadingSpace(s), e) ==> e <= RuleAt(s).value
    ensures RuleAt(s).None? ==> forall k, e :: !IsRuleMatch(s, k, e)
  {
    if RuleAt(s).Some? {
      RuleAtMatches(s);
    }
    forall k, e | IsRuleMatch(s, k, e)
      ensures RuleAt(s).Some? && e <= RuleAt(s).value
    {
      RuleStartForced(s, k, e);
      RuleAtLongest(s, e);
    }
  }

  /** What `RuleAt` finds is a match. */
  lemma RuleAtMatches(s: string)
    requires RuleAt(s).Some?
    ensures IsRuleMatch(s, LeadingSpace(s), RuleAt(s).value)
  {
    var k := LeadingSpace(s);
    var a := k + 3;
    var m := a + LeadingSpace(s[a..]);
    assert RuleAt(s) == LastLineEnd(s, a, m);
    LastLineEndSpec(s, a, m);
    RuleAtFound(s, k, RuleAt(s).value);
  }

  /** Every match ends no later than the one `RuleAt` finds. */
  lemma RuleAtLongest(s: string, e: nat)
    requires IsRuleMatch(s, LeadingSpace(s), e)
    ensures RuleAt(s).Some? && e <= RuleAt(s).value
  {
    var k := LeadingSpace(s);
    var a := k + 3;
    assert s[k..][..3] == s[k..a];
    var m := a + LeadingSpace(s[a..]);
    assert RuleAt(s) == LastLineEnd(s, a, m);
    RuleEndWithinSpace(s, a, e);
    LastLineEndSpec(s, a, m);
  }

  /** A match's trailing blank run lies within the whitespace run after
      the dashes. */
  lemma RuleEndWithinSpace(s: string, a: nat, e: nat)
    requires a <= e <= |s| && Blank(s[a..e])
    ensures e <= a + LeadingSpace(s[a..])
  {
    assert s[a..e] == s[a..][..e - a];
    LeadingSpaceCovers(s[a..], e - a);
  }

  /** Dashes after the leading whitespace run and a line end within the
      whitespace run after them make a match. */
  lemma RuleAtFound(s: string, k: nat, e: nat)
    requires k == LeadingSpace(s) && StartsWith(s[k..], "---")
    requires k + 3 <= e <= k + 3 + LeadingSpace(s[k + 3..]) && LineEnd(s, e)
    ensures IsRuleMatch(s, k, e)
  {
    var a := k + 3;
    assert s[k..a] == s[k..][..3];
    assert Blank(s[..k]) by {
      forall i | 0 <= i < k
        ensures IsSpace(s[..k][i])
      {
        assert s[..k][i] == s[i];
      }
    }
    assert Blank(s[a..e]) by {
      forall i | 0 <= i < e - a
        ensures IsSpace(s[a..e][i])
      {
        assert s[a..e][i] == s[a..][i];
      }
    }
  }

  /** `re.sub(r'^\s*---\s*$', '<hr/>', s, flags=re.MULTILINE)` on the rest
      `s` of a text; `atLineStart` tells whether the character before `s`
      was a newline (or there was none). */
  function HrRewrite(s: string, atLineStart: bool): string
    decreases |s|
  {
    if |s| == 0 then ""
    else
      var m := if atLineStart then RuleAt(s) else None;
      match m
      case Some(e) => HrTag + HrRewrite(s[e..], s[e - 1] == '\n')
      case None => [s[0]] + HrRewrite(s[1..], s[0] == '\n')
  }

  /** `markdown_to_pdf`: bold first, then inline code, then rule lines. */
  function MarkdownToPdf(text: string): string {
    HrRewrite(Code(Bold(text)), true)
  }

  /** Whether position `i` of `s` is a line start, `atLineStart` telling
      the same for position 0. */
  predicate LineStartAt(s: string, i: int, atLineStart: bool)
    requires 0 <= i <= |s|
  {
    if i == 0 then atLineStart else s[i - 1] == '\n'
  }

  /** Where no rule matches at any line start, the rewrite changes
      nothing. */
  lemma {:induction false} HrRewriteNoMatch(s: string, atLineStart: bool)
    requires forall i :: 0 <= i < |s| && LineStartAt(s, i, atLineStart) ==> RuleAt(s[i..]).None?
    ensures HrRewrite(s, atLineStart) == s
    decreases |s|
  {
    if |s| > 0 {
      assert s[0..] == s;
      var t := s[1..];
      forall i | 0 <= i < |t| && LineStartAt(t, i, s[0] == '\n')
        ensures RuleAt(t[i..]).None?
      {
        assert t[i..] == s[i + 1..];
        assert LineStartAt(s, i + 1, atLineStart);
      }
      HrRewriteNoMatch(t, s[0] == '\n');
      assert s == [s[0]] + t;
    }
  }

  /** Text without `---` holds no rule line. */
  lemma HrRewriteAbsent(s: string, atLineStart: bool)
    requires !Contains(s, "---")
    ensures HrRewrite(s, atLineStart) == s
  {
    forall i | 0 <= i < |s|
      ensures RuleAt(s[i..]).None?
    {
      var k := LeadingSpace(s[i..]);
      if StartsWith(s[i..][k..], "---") {
        assert s[i..][k..] == s[i + k..];
        assert Contains(s[i + k..], "---");
        ContainsSuffix(s, i + k, "---");
      }
    }
    HrRewriteNoMatch(s, atLineStart);
  }

  /** A blank prefix lies within the leading whitespace run. */
  lemma {:induction false} LeadingSpaceCovers(t: string, j: int)
    requires 0 <= j <= |t| && Blank(t[..j])
    ensures j <= LeadingSpace(t)
    decreases j
  {
    if j > 0 {
      assert t[..j][0] == t[0];
      assert t[1..][..j - 1] == t[..j][1..];
      LeadingSpaceCovers(t[1..], j - 1);
    }
  }

  /** The leading whitespace run stops at or before any non-space
      character. */
  lemma LeadingSpaceStopsAt(s: string, i: int)
    requires 0 <= i < |s| && !IsSpace(s[i])
    ensures LeadingSpace(s) <= i
  {
  }

  /** Three dashes start at position `i` of `x`. */
  predicate DashRunAt(x: string, i: int) {
    0 <= i && i + 3 <= |x| && x[i] == '-' && x[i + 1] == '-' && x[i + 2] == '-'
  }

  /** No three consecutive dashes anywhere in `x`. */
  predicate NoDashRun(x: string) {
    forall i :: 0 <= i < |x| ==> !DashRunAt(x, i)
  }

  /** No rule starts in text whose last character is not whitespace, which
      holds no `---` and which is followed by a line break or nothing. */
  lemma NoDashesAt(x: string, k: nat)
    requires k + 3 <= |x| && NoDashRun(x)
    ensures x[k..k + 3] != "---"
  {
    var v := x[k..k + 3];
    assert !DashRunAt(x, k);
    assert v[0] == x[k] && v[1] == x[k + 1] && v[2] == x[k + 2];
  }

  lemma NoRuleBeforeBreak(x: string, z: string)
    requires |x| > 0 && !IsSpace(x[|x| - 1]) && NoDashRun(x)
    requires |z| == 0 || z[0] == '\n'
    ensures RuleAt(x + z).None?
  {
    var s := x + z;
    var k := LeadingSpace(s);
    assert !StartsWith(s[k..], "---") by {
      assert s[|x| - 1] == x[|x| - 1];
      LeadingSpaceStopsAt(s, |x| - 1);
      if k + 3 <= |x| {
        NoDashesAt(x, k);
        assert s[k..][..3] == x[k..k + 3];
      } else if k + 3 <= |s| {
        var w := s[k..][..3];
        assert w[|x| - k] == s[|x|] == z[0] == '\n';
        assert w != "---" by {
          assert "---"[|x| - k] == '-';
        }
      }
    }
  }

  /** Text ending in a non-space character and holding no `---` passes
      through untouched when a line break or nothing follows it; after it
      the scan is not at a line start. */
  lemma {:induction false} HrRewritePassThrough(x: string, z: string, atLineStart: bool)
    requires |x| > 0 && !IsSpace(x[|x| - 1]) && NoDashRun(x)
    requires |z| == 0 || z[0] == '\n'
    ensures HrRewrite(x + z, atLineStart) == x + HrRewrite(z, false)
    decreases |x|
  {
    var s := x + z;
    HrRewritePassOne(x, z, atLineStart);
    if |x| == 1 {
      assert s[1..] == z;
      assert x == [s[0]];
    } else {
      var x' := x[1..];
      assert s[1..] == x' + z;
      assert x'[|x'| - 1] == x[|x| - 1];
      NoDashRunTail(x);
      HrRewritePassThrough(x', z, s[0] == '\n');
      assert x == [s[0]] + x';
      AppendAssoc([s[0]], x', HrRewrite(z, false));
    }
  }

  /** The first character of such text is copied as it is. */
  lemma HrRewritePassOne(x: string, z: string, atLineStart: bool)
    requires |x| > 0 && !IsSpace(x[|x| - 1]) && NoDashRun(x)
    requires |z| == 0 || z[0] == '\n'
    ensures HrRewrite(x + z, atLineStart) == [(x + z)[0]] + HrRewrite((x + z)[1..], (x + z)[0] == '\n')
  {
    NoRuleBeforeBreak(x, z);
  }

  lemma NoDashRunTail(x: string)
    requires |x| > 0 && NoDashRun(x)
    ensures NoDashRun(x[1..])
  {
    forall i | 0 <= i < |x| - 1
      ensures !DashRunAt(x[1..], i)
    {
      assert !DashRunAt(x, i + 1);
    }
  }

  /** The leading whitespace run of `w + t` is `w` when `w` is blank and
      `t` starts with a non-space character. */
  lemma LeadingSpaceOfBlank(w: string, t: string)
    requires Blank(w) && |t| > 0 && !IsSpace(t[0])
    ensures LeadingSpace(w + t) == |w|
  {
    var s := w + t;
    assert s[|w|] == t[0];
  }

  /** A line holding `---` and whitespace only is replaced as a whole,
      together with any blank lines above and below it, leaving the line
      breaks that end the text before and start the text after. */
  lemma HrRuleLine(x: string, w1: string, w2: string, y: string)
    requires |x| > 0 && !IsSpace(x[|x| - 1]) && NoDashRun(x)
    requires Blank(w1) && Blank(w2)
    requires |y| > 0 && !IsSpace(y[0]) && y[0] != '-'
    ensures HrRewrite(x + "\n" + w1 + "---" + w2 + "\n" + y, true)
         == x + "\n" + HrTag + "\n" + HrRewrite(y, true)
  {
    var line := w1 + "---" + w2 + "\n" + y;
    RegroupSeven(x, "\n", w1, "---", w2, "\n", y);
    HrRuleLineRest(w1, w2, y);
    HrTextThenLine(x, line, HrRewrite(y, true));
  }

  lemma RegroupSeven<T>(a: seq<T>, b: seq<T>, c: seq<T>, d: seq<T>, e: seq<T>, f: seq<T>, g: seq<T>)
    ensures a + b + c + d + e + f + g == a + (b + (c + d + e + f + g))
  {
  }

  /** A line of text, then a line break, then text that starts with a rule
      line. */
  lemma HrTextThenLine(x: string, line: string, r: string)
    requires |x| > 0 && !IsSpace(x[|x| - 1]) && NoDashRun(x)
    requires HrRewrite(line, true) == HrTag + ("\n" + r)
    ensures HrRewrite(x + ("\n" + line), true) == x + "\n" + HrTag + "\n" + r
  {
    var z := "\n" + line;
    HrRewritePassThrough(x, z, true);
    assert HrRewrite(z, false) == "\n" + HrRewrite(line, true) by {
      assert z[1..] == line;
    }
    RegroupFive(x, "\n", HrTag, "\n", r);
  }

  /** The part of `HrRuleLine` from the line start before the rule on. */
  lemma HrRuleLineRest(w1: string, w2: string, y: string)
    requires Blank(w1) && Blank(w2)
    requires |y| > 0 && !IsSpace(y[0]) && y[0] != '-'
    ensures HrRewrite(w1 + "---" + w2 + "\n" + y, true) == HrTag + ("\n" + HrRewrite(y, true))
  {
    var line := w1 + "---" + w2 + "\n" + y;
    var e := HrRuleLineMatch(w1, w2, y);
    HrRuleThenBreak(line, e, y);
  }

  /** One rule step whose match stops at a line break before `y`. */
  lemma HrRuleThenBreak(s: string, e: nat, y: string)
    requires RuleAt(s) == Some(e) && s[e..] == "\n" + y
    requires |y| > 0 && !IsSpace(y[0]) && y[0] != '-'
    ensures HrRewrite(s, true) == HrTag + ("\n" + HrRewrite(y, true))
  {
    HrRewriteRuleStep(s, e);
    HrAfterRule(y, s[e - 1] == '\n');
  }

  /** One step of the rule scan where a rule matches. */
  lemma HrRewriteRuleStep(s: string, e: nat)
    requires RuleAt(s) == Some(e)
    ensures HrRewrite(s, true) == HrTag + HrRewrite(s[e..], s[e - 1] == '\n')
  {
  }

  lemma RegroupMiddle<T>(a: seq<T>, b: seq<T>, c: seq<T>, d: seq<T>, e: seq<T>, f: seq<T>, g: seq<T>)
    ensures a + (b + c + d + e + f) + g == a + b + c + d + e + f + g
  {
  }

  lemma RegroupFive<T>(a: seq<T>, b: seq<T>, c: seq<T>, d: seq<T>, e: seq<T>)
    ensures a + (b + (c + (d + e))) == a + b + c + d + e
  {
  }

  /** The match inside `HrRuleLine`: it ends at the line break before `y`. */
  lemma HrRuleLineMatch(w1: string, w2: string, y: string) returns (e: nat)
    requires Blank(w1) && Blank(w2)
    requires |y| > 0 && !IsSpace(y[0]) && y[0] != '-'
    ensures e == |w1| + 3 + |w2|
    ensures RuleAt(w1 + "---" + w2 + "\n" + y) == Some(e)
    ensures (w1 + "---" + w2 + "\n" + y)[e..] == "\n" + y
  {
    var line := w1 + "---" + w2 + "\n" + y;
    var k := |w1|;
    var a := k + 3;
    e := a + |w2|;
    RuleLineLayout(w1, w2, y);
    LeadingSpaceOfBlank(w1, "---" + w2 + "\n" + y);
    LeadingSpaceOfBlank(w2 + "\n", y);
    RuleAtUnfold(line, k, e + 1);
    LastLineEndBeforeText(line, a, e);
  }

  /** Where the parts of a rule line sit. */
  lemma RuleLineLayout(w1: string, w2: string, y: string)
    requires |y| > 0
    ensures var line := w1 + "---" + w2 + "\n" + y;
      var k := |w1|;
      var e := k + 3 + |w2|;
      && line == w1 + ("---" + w2 + "\n" + y)
      && StartsWith(line[k..], "---")
      && line[k + 3..] == (w2 + "\n") + y
      && e + 1 < |line| && line[e] == '\n' && line[e + 1] == y[0]
      && line[e..] == "\n" + y
  {
    var line := w1 + "---" + w2 + "\n" + y;
    var k := |w1|;
    assert line == w1 + ("---" + w2 + "\n" + y);
    assert line[k..][..3] == "---";
    assert line == (w1 + "---" + w2) + ("\n" + y);
  }

  /** Scanning back from the character after a line break that is followed
      by text finds that break. */
  lemma LastLineEndBeforeText(s: string, lo: nat, e: nat)
    requires lo <= e && e + 1 < |s|
    requires s[e] == '\n' && s[e + 1] != '\n'
    ensures LastLineEnd(s, lo, e + 1) == Some(e)
  {
    assert LastLineEnd(s, lo, e + 1) == LastLineEnd(s, lo, e);
  }

  /** `RuleAt` when the dashes follow the leading whitespace run, with the
      end `m` of the whitespace run after them named. */
  lemma RuleAtUnfold(s: string, k: nat, m: nat)
    requires k == LeadingSpace(s) && k + 3 <= |s| && StartsWith(s[k..], "---")
    requires m == k + 3 + LeadingSpace(s[k + 3..])
    ensures RuleAt(s) == LastLineEnd(s, k + 3, m)
  {
  }

  /** After a rule that ended at a line break, that break is kept and the
      scan resumes at the next line. */
  lemma HrAfterRule(y: string, atLineStart: bool)
    requires |y| > 0 && !IsSpace(y[0]) && y[0] != '-'
    ensures HrRewrite("\n" + y, atLineStart) == "\n" + HrRewrite(y, true)
  {
    var s := "\n" + y;
    LeadingSpaceOfBlank("\n", y);
    assert s[1..] == y;
    assert !StartsWith(s[1..], "---");
    assert RuleAt(s).None?;
  }

  /** A rule line standing alone is replaced by a single tag. */
  lemma HrLineAlone(w1: string, w2: string)
    requires Blank(w1) && Blank(w2)
    ensures HrRewrite(w1 + "---" + w2, true) == HrTag
  {
    var s := w1 + "---" + w2;
    var k := |w1|;
    assert LeadingSpace(s) == k && k + 3 <= |s| && StartsWith(s[k..], "---") by {
      LeadingSpaceOfBlank(w1, "---" + w2);
      assert s == w1 + ("---" + w2);
      assert s[k..][..3] == "---";
    }
    assert k + 3 + LeadingSpace(s[k + 3..]) == |s| by {
      assert s[k + 3..] == w2;
      assert w2[..|w2|] == w2;
      LeadingSpaceCovers(w2, |w2|);
    }
    RuleAtUnfold(s, k, |s|);
    assert LastLineEnd(s, k + 3, |s|) == Some(|s|);
    HrRewriteRuleStep(s, |s|);
    assert s[|s|..] == "";
  }

  /** In `markdown_to_pdf`, a rule line between two blank lines takes both
      blank lines with it: `x\n\n---\n\ny` comes out as `x\n<hr/>\ny`. */
  lemma MarkdownRuleSwallowsBlankLines(x: string, y: string)
    requires |x| > 0 && !IsSpace(x[|x| - 1]) && NoDashRun(x)
    requires |y| > 0 && !IsSpace(y[0]) && y[0] != '-'
    requires Lacks(x, '*') && Lacks(x, '`') && Lacks(y, '*') && Lacks(y, '`')
    ensures MarkdownToPdf(x + "\n\n---\n\n" + y) == x + "\n" + HrTag + "\n" + HrRewrite(y, true)
  {
    var mid := "\n\n---\n\n";
    BlankRuleLine();
    var s := x + mid + y;
    LacksAppend(x, mid, '*');
    LacksAppend(x + mid, y, '*');
    LacksAppend(x, mid, '`');
    LacksAppend(x + mid, y, '`');
    InlineIdentity(s);
    HrBlankRuleLine(x, y);
  }

  /** The rule line between two blank lines, taken apart. */
  lemma BlankRuleLine()
    ensures "\n\n---\n\n" == "\n" + "\n" + "---" + "\n" + "\n"
    ensures Lacks("\n\n---\n\n", '*') && Lacks("\n\n---\n\n", '`')
  {
  }

  /** Text with no asterisk and no backtick goes through the bold and code
      rewrites unchanged. */
  lemma InlineIdentity(s: string)
    requires Lacks(s, '*') && Lacks(s, '`')
    ensures Code(Bold(s)) == s
  {
    assert s + "" == s;
    assert Bold(s) == s by {
      PairRewritePassThrough(s, "", "**", BoldOpen, BoldClose);
      assert Bold("") == "";
    }
    assert Code(s) == s by {
      PairRewritePassThrough(s, "", "`", CodeOpen, CodeClose);
      assert Code("") == "";
    }
  }

  lemma HrBlankRuleLine(x: string, y: string)
    requires |x| > 0 && !IsSpace(x[|x| - 1]) && NoDashRun(x)
    requires |y| > 0 && !IsSpace(y[0]) && y[0] != '-'
    ensures HrRewrite(x + "\n\n---\n\n" + y, true) == x + "\n" + HrTag + "\n" + HrRewrite(y, true)
  {
    BlankRuleLine();
    RegroupMiddle(x, "\n", "\n", "---", "\n", "\n", y);
    assert Blank("\n");
    HrRuleLine(x, "\n", "\n", y);
  }

  /** The inline-code rewrite runs after the bold one, so bold inside a
      code span ends up inside the font tag. */
  lemma CodeAroundBold(x: string)
    requires Lacks(x, '*') && Lacks(x, '`') && Lacks(x, '\n')
    ensures Code(Bold("`**" + x + "**`")) == CodeOpen + BoldOpen + x + BoldClose + CodeClose
  {
    var inner := BoldOpen + x + BoldClose;
    assert Bold("`**" + x + "**`") == "`" + inner + "`" by {
      BoldInsideCode(x);
    }
    assert Code("`" + inner + "`") == CodeOpen + inner + CodeClose by {
      assert Lacks(inner, '`') && Lacks(inner, '\n');
      CodeWraps(inner, "");
      assert "`" + inner + "`" + "" == "`" + inner + "`";
      assert Code("") == "";
    }
  }

  /** The bold step of `CodeAroundBold`. */
  lemma BoldInsideCode(x: string)
    requires Lacks(x, '*') && Lacks(x, '\n')
    ensures Bold("`**" + x + "**`") == "`" + BoldOpen + x + BoldClose + "`"
  {
    var t := "**" + x + "**" + "`";
    assert "`**" + x + "**`" == "`" + t;
    assert Bold("`" + t) == "`" + Bold(t) by {
      PairRewritePassThrough("`", t, "**", BoldOpen, BoldClose);
    }
    assert Bold(t) == BoldOpen + x + BoldClose + Bold("`") by {
      BoldWraps(x, "`");
    }
    assert Bold("`") == "`" by {
      PairRewritePassThrough("`", "", "**", BoldOpen, BoldClose);
      assert "`" + "" == "`";
      assert Bold("") == "";
    }
  }

  /** Text with no bold span, no code span and no rule line comes out of
      `markdown_to_pdf` as it went in. */
  lemma MarkdownToPdfUnchanged(s: string)
    requires forall i :: 0 <= i < |s| ==> PairAt(s[i..], "**").None?
    requires forall i :: 0 <= i < |s| ==> PairAt(s[i..], "`").None?
    requires forall i :: 0 <= i < |s| && LineStartAt(s, i, true) ==> RuleAt(s[i..]).None?
    ensures MarkdownToPdf(s) == s
  {
    PairRewriteNoMatch(s, "**", BoldOpen, BoldClose);
    PairRewriteNoMatch(s, "`", CodeOpen, CodeClose);
    HrRewriteNoMatch(s, true);
  }
}

=== FILE: project.dfy ===
/**
  The rest of project.py: the `/review` filename check, the sentence
  splitter `split_reviewer_text`, and the element plan of its
  `generate_formatted_pdf`, whose rules sit between the `<hr/>` sections.
 */
module Project {
  import opened Strings
  import opened Layout
  import opened Markdown
  import Utils

  // -----------------------------------------------------------------------
  // The /review filename check

  const PdfSuffix: string := ".pdf"

  /** The ephemeral reply to an upload that is not a PDF file. */
  const InvalidFileNotice: string := "\U{26A0}\U{FE0F} Please upload a valid **PDF file**."

  /** How `/review` starts on an uploaded file: it stops with a notice, or
      goes on to process the file. */
  datatype ReviewStart = Rejected(notice: string) | Accepted

  /** `filename.lower().endswith(".pdf")`. */
  predicate IsPdfName(filename: string) {
    EndsWith(Lower(filename), PdfSuffix)
  }

  /** A dot and then `p`, `d`, `f` in either case, at the very end. */
  predicate PdfExtensionAnyCase(f: string) {
    && |f| >= 4
    && f[|f| - 4] == '.'
    && (f[|f| - 3] == 'p' || f[|f| - 3] == 'P')
    && (f[|f| - 2] == 'd' || f[|f| - 2] == 'D')
    && (f[|f| - 1] == 'f' || f[|f| - 1] == 'F')
  }

  /** The review proceeds exactly for names ending in `.pdf` in any mix of
      case; any other name gets the invalid-file notice and nothing more. */
  function ReviewGate(filename: string): (r: ReviewStart)
    ensures r.Accepted? <==> PdfExtensionAnyCase(filename)
    ensures r.Rejected? ==> r.notice == InvalidFileNotice
  {
    PdfNameAnyCase(filename);
    if IsPdfName(filename) then Accepted else Rejected(InvalidFileNotice)
  }

  lemma PdfNameAnyCase(f: string)
    ensures IsPdfName(f) <==> PdfExtensionAnyCase(f)
  {
    var l := Lower(f);
    var n := |f|;
    if n >= 4 {
      var t := l[n - 4..];
      assert t[0] == LowerChar(f[n - 4]) && t[1] == LowerChar(f[n - 3]);
      assert t[2] == LowerChar(f[n - 2]) && t[3] == LowerChar(f[n - 1]);
      if PdfExtensionAnyCase(f) {
        assert t == PdfSuffix;
      }
    }
  }

  // -----------------------------------------------------------------------
  // split_reviewer_text

  /** What the splitter promises of each item it yields: non-empty, no
      whitespace at either end, on one line, and one sentence. */
  predicate ReviewerItem(x: string) {
    Trimmed(x) && Lacks(x, '\n') && !Contains(x, ". ")
  }

  /** The items of one line: nothing when it is blank, else its `". "`
      pieces, stripped, the blank ones dropped. */
  function LineItems(line: string): seq<string> {
    var p := Strip(line);
    if p == "" then [] else NonBlank(Split(p, ". "))
  }

  /** `split_reviewer_text`: the items of each line, in order. */
  function SplitReviewerText(text: string): seq<string> {
    FlatMap(LineItems, Split(text, "\n"))
  }

  /** Every item is one trimmed sentence on one line. */
  lemma SplitReviewerTextItems(text: string)
    ensures forall x :: x in SplitReviewerText(text) ==> ReviewerItem(x)
  {
    var lines := Split(text, "\n");
    SplitLeftmost(text, "\n");
    forall line, x | line in lines && x in LineItems(line)
      ensures ReviewerItem(x)
    {
      ContainsChar(line, '\n');
      LineItemsShape(line);
    }
    FlatMapAll(LineItems, lines, ReviewerItem);
  }

  lemma LineItemsShape(line: string)
    requires Lacks(line, '\n')
    ensures forall x :: x in LineItems(line) ==> ReviewerItem(x)
  {
    var p := Strip(line);
    if p != "" {
      var pieces := Split(p, ". ");
      StripLacks(line, '\n');
      SplitPiecesLack(p, ". ", '\n');
      SplitLeftmost(p, ". ");
      forall piece, x | piece in pieces && x in KeepLine(piece)
        ensures ReviewerItem(x)
      {
        StripLacks(piece, '\n');
        StripNotContains(piece, ". ");
      }
      FlatMapAll(KeepLine, pieces, ReviewerItem);
    }
  }

  /** Lines are split independently: the items of two texts joined by a
      line break are the items of each, in order. */
  lemma SplitReviewerTextLines(x: string, y: string)
    ensures SplitReviewerText(x + "\n" + y) == SplitReviewerText(x) + SplitReviewerText(y)
  {
    SplitConcatChar(x, '\n', y);
    FlatMapAppend(LineItems, Split(x, "\n"), Split(y, "\n"));
  }

  /** Blank text, blank lines included, yields no item. */
  lemma SplitReviewerTextBlank(s: string)
    requires Blank(s)
    ensures SplitReviewerText(s) == []
  {
    var lines := Split(s, "\n");
    SplitPiecesBlank(s, "\n");
    forall line | line in lines
      ensures LineItems(line) == []
    {
      StripBlank(line);
    }
    FlatMapEmpty(LineItems, lines);
  }

  /** Sentences joined with `". "` on one line are split back into exactly
      those sentences. */
  lemma SplitReviewerTextJoin(items: seq<string>)
    requires forall i :: 0 <= i < |items| ==> ReviewerItem(items[i])
    ensures SplitReviewerText(Join(items, ". ")) == items
  {
    var line := Join(items, ". ");
    if |items| == 0 {
      assert Split("", "\n") == [""];
      FlatMapOne(LineItems, "");
      assert Strip("") == "";
    } else {
      JoinedItemsShape(items);
      ContainsChar(line, '\n');
      SplitWithout(line, "\n");
      FlatMapOne(LineItems, line);
      StripTrimmed(line);
      SplitSentences(items);
      KeepTrimmed(items);
    }
  }

  /** Sentences joined with `". "` form one trimmed line. */
  lemma {:induction false} JoinedItemsShape(items: seq<string>)
    requires |items| > 0
    requires forall i :: 0 <= i < |items| ==> ReviewerItem(items[i])
    ensures Trimmed(Join(items, ". ")) && Lacks(Join(items, ". "), '\n')
    decreases |items|
  {
    if |items| > 1 {
      var rest := Join(items[1..], ". ");
      JoinedItemsShape(items[1..]);
      assert ReviewerItem(items[0]);
      assert Join(items, ". ") == items[0] + ". " + rest;
      LacksAppend(items[0], ". ", '\n');
      LacksAppend(items[0] + ". ", rest, '\n');
    }
  }

  /** Splitting sentences joined with `". "` gives the sentences back. */
  lemma {:induction false} SplitSentences(items: seq<string>)
    requires |items| > 0
    requires forall i :: 0 <= i < |items| ==> ReviewerItem(items[i])
    ensures Split(Join(items, ". "), ". ") == items
    decreases |items|
  {
    assert ReviewerItem(items[0]);
    if |items| == 1 {
      SplitWithout(items[0], ". ");
    } else {
      var rest := Join(items[1..], ". ");
      SplitSentences(items[1..]);
      DotNoSentenceBreak(items[0]);
      assert ". "[..1] == ".";
      SplitConcat(items[0], ". ", rest);
      SplitWithout(items[0], ". ");
      assert items == [items[0]] + items[1..];
    }
  }

  /** A full stop appended to text with no sentence break makes none. */
  lemma {:induction false} DotNoSentenceBreak(x: string)
    requires !Contains(x, ". ")
    ensures !Contains(x + ".", ". ")
    decreases |x|
  {
    var s := x + ".";
    if |x| >= 2 {
      assert s[..2] == x[..2];
    } else if |x| == 1 {
      assert s[1] == '.';
    }
    if |x| > 0 {
      assert s[1..] == x[1..] + ".";
      DotNoSentenceBreak(x[1..]);
    } else {
      TooShortContainsNothing(s, ". ");
    }
  }

  /** Trimmed paragraphs are kept as they are. */
  lemma {:induction false} KeepTrimmed(ps: seq<string>)
    requires forall i :: 0 <= i < |ps| ==> Trimmed(ps[i])
    ensures NonBlank(ps) == ps
    decreases |ps|
  {
    if |ps| > 0 {
      StripTrimmed(ps[0]);
      KeepTrimmed(ps[1..]);
      assert ps == [ps[0]] + ps[1..];
    }
  }

  // -----------------------------------------------------------------------
  // The reviewer plan of generate_formatted_pdf

  /** The elements of one `<hr/>` section: its paragraphs, once the section
      has been stripped. */
  function ReviewerSection(sec: string): seq<Element> {
    SectionBlock(Strip(sec))
  }

  /** The sections in turn, with a rule and an 8-point spacer between
      consecutive ones. */
  function ReviewerSections(secs: seq<string>): seq<Element>
    decreases |secs|
  {
    if |secs| == 0 then []
    else if |secs| == 1 then ReviewerSection(secs[0])
    else ReviewerSection(secs[0]) + RuleBreak + ReviewerSections(secs[1..])
  }

  /** The element plan project.py builds for the reviewer `text`. */
  function ReviewerPlan(text: string): seq<Element> {
    Header + ReviewerSections(Split(MarkdownToPdf(text), HrTag))
  }

  /** A section stripped first yields the paragraphs it would unstripped. */
  lemma ReviewerSectionBlock(sec: string)
    ensures ReviewerSection(sec) == SectionBlock(sec)
  {
    ParagraphsStrip(sec);
  }

  /** One rule fewer than sections, and the body text is the paragraphs of
      every section in turn. */
  lemma {:induction false} ReviewerSectionsCounts(secs: seq<string>)
    requires |secs| > 0
    ensures RuleCount(ReviewerSections(secs)) == |secs| - 1
    ensures Bodies(ReviewerSections(secs)) == FlatMap(Paragraphs, secs)
    decreases |secs|
  {
    ReviewerSectionCounts(secs[0]);
    if |secs| == 1 {
      FlatMapOne(Paragraphs, secs[0]);
    } else {
      ReviewerSectionsCounts(secs[1..]);
      ReviewerSectionsStep(secs);
    }
  }

  /** One section: no rule, and its paragraphs as the body text. */
  lemma ReviewerSectionCounts(sec: string)
    ensures RuleCount(ReviewerSection(sec)) == 0
    ensures Bodies(ReviewerSection(sec)) == Paragraphs(sec)
  {
    ReviewerSectionBlock(sec);
    SectionBlockContents(Paragraphs(sec));
  }

  /** The counts of several sections, from those of the first and the rest. */
  lemma ReviewerSectionsStep(secs: seq<string>)
    requires |secs| > 1
    ensures RuleCount(ReviewerSections(secs))
         == RuleCount(ReviewerSection(secs[0])) + 1 + RuleCount(ReviewerSections(secs[1..]))
    ensures Bodies(ReviewerSections(secs))
         == Bodies(ReviewerSection(secs[0])) + Bodies(ReviewerSections(secs[1..]))
  {
    ReviewerSectionsUnfold(secs);
    BetweenRuleCounts(ReviewerSection(secs[0]), ReviewerSections(secs[1..]));
  }

  lemma ReviewerSectionsUnfold(secs: seq<string>)
    requires |secs| > 1
    ensures ReviewerSections(secs) == ReviewerSection(secs[0]) + RuleBreak + ReviewerSections(secs[1..])
  {
  }

  /** A rule break between two plans adds one rule and no body text. */
  lemma BetweenRuleCounts(a: seq<Element>, b: seq<Element>)
    ensures RuleCount(a + RuleBreak + b) == RuleCount(a) + 1 + RuleCount(b)
    ensures Bodies(a + RuleBreak + b) == Bodies(a) + Bodies(b)
  {
    Utils.RuleBreakCounts();
    RuleCountAppend(a, RuleBreak);
    RuleCountAppend(a + RuleBreak, b);
    BodiesAppend(a, RuleBreak);
    BodiesAppend(a + RuleBreak, b);
  }

  /** The utils.py plan of the same sections is this one with a rule and
      its spacer added after the last section: the two variants differ
      exactly in that final rule. */
  lemma {:induction false} HandoutHasTrailingRule(secs: seq<string>)
    requires |secs| > 0
    ensures FlatMap(Utils.HandoutSection, secs) == ReviewerSections(secs) + RuleBreak
    decreases |secs|
  {
    ReviewerSectionBlock(secs[0]);
    if |secs| == 1 {
      FlatMapOne(Utils.HandoutSection, secs[0]);
      assert secs == [secs[0]];
    } else {
      var head := ReviewerSection(secs[0]);
      var rest := ReviewerSections(secs[1..]);
      HandoutHasTrailingRule(secs[1..]);
      AppendAssoc(head + RuleBreak, rest, RuleBreak);
    }
  }

  /** The plan opens with the title; it holds one rule per `<hr/>` the
      markdown rewrite produced, and its body text is the paragraphs of
      every section in turn. */
  lemma ReviewerPlanCounts(text: string)
    ensures ReviewerPlan(text)[..2] == Header
    ensures RuleCount(ReviewerPlan(text)) == Count(MarkdownToPdf(text), HrTag)
    ensures Bodies(ReviewerPlan(text)) == FlatMap(Paragraphs, Split(MarkdownToPdf(text), HrTag))
  {
    var formatted := MarkdownToPdf(text);
    var secs := Split(formatted, HrTag);
    var body := ReviewerSections(secs);
    ReviewerSectionsCounts(secs);
    SplitLength(formatted, HrTag);
    HeaderCounts();
    RuleCountAppend(Header, body);
    BodiesAppend(Header, body);
  }

  /** The reviewer plan followed by one more rule and spacer is the
      utils.py plan of the same sections. */
  lemma ReviewerPlanVersusHandout(text: string)
    ensures ReviewerPlan(text) + RuleBreak
         == Header + FlatMap(Utils.HandoutSection, Split(MarkdownToPdf(text), HrTag))
  {
    var secs := Split(MarkdownToPdf(text), HrTag);
    HandoutHasTrailingRule(secs);
    AppendAssoc(Header, ReviewerSections(secs), RuleBreak);
  }

  /** A `---` line between blank lines in the reviewer text splits the
      reviewer into two sections with one rule between them and none after
      the second. */
  lemma ReviewerPlanOfRuleLine(x: string, y: string)
    requires |x| > 0 && !IsSpace(x[|x| - 1]) && NoDashRun(x)
    requires |y| > 0 && !IsSpace(y[0]) && Lacks(y, '-')
    requires Lacks(x, '*') && Lacks(x, '`') && Lacks(y, '*') && Lacks(y, '`')
    requires Lacks(x, '<') && Lacks(y, '<')
    ensures ReviewerPlan(x + "\n\n---\n\n" + y) == Header + (SectionBlock(x) + RuleBreak + SectionBlock(y))
  {
    RuleLineFormatted(x, y);
    RuleLineSections(x, y);
    RuleLineBlocks(x, y);
  }

  /** The markdown rewrite of a rule line between blank lines. */
  lemma RuleLineFormatted(x: string, y: string)
    requires |x| > 0 && !IsSpace(x[|x| - 1]) && NoDashRun(x)
    requires |y| > 0 && !IsSpace(y[0]) && Lacks(y, '-')
    requires Lacks(x, '*') && Lacks(x, '`') && Lacks(y, '*') && Lacks(y, '`')
    ensures MarkdownToPdf(x + "\n\n---\n\n" + y) == (x + "\n") + HrTag + ("\n" + y)
  {
    assert y[0] != '-';
    MarkdownRuleSwallowsBlankLines(x, y);
    LacksFirstChar(y, "---");
    HrRewriteAbsent(y, true);
  }

  /** The two sections around the rule, as the plan lays them out. */
  lemma RuleLineBlocks(x: string, y: string)
    ensures ReviewerSections([x + "\n", "\n" + y]) == SectionBlock(x) + RuleBreak + SectionBlock(y)
  {
    ReviewerSectionsUnfold([x + "\n", "\n" + y]);
    assert [x + "\n", "\n" + y][1..] == ["\n" + y];
    ReviewerSectionBlock(x + "\n");
    ReviewerSectionBlock("\n" + y);
    ParagraphsDropTrailingSpace(x, '\n');
    assert ("\n" + y)[1..] == y;
    ParagraphsDropSpace("\n" + y);
  }

  /** The `<hr/>` cuts of a rewritten rule line. */
  lemma RuleLineSections(x: string, y: string)
    requires Lacks(x, '<') && Lacks(y, '<')
    ensures Split((x + "\n") + HrTag + ("\n" + y), HrTag) == [x + "\n", "\n" + y]
  {
    var p := x + "\n";
    var q := "\n" + y;
    LacksAppend(x, "\n", '<');
    LacksAppend("\n", y, '<');
    assert HrTag[0] == '<' && HrTag[..|HrTag| - 1] == "<hr/";
    if Contains(p + "<hr/", HrTag) {
      ContainsPastLacking(p, "<hr/", HrTag);
      TooShortContainsNothing("<hr/", HrTag);
    }
    SplitConcat(p, HrTag, q);
    LacksFirstChar(p, HrTag);
    SplitWithout(p, HrTag);
    LacksFirstChar(q, HrTag);
    SplitWithout(q, HrTag);
  }
}

=== FILE: strings.dfy ===
/**
  The pieces of Python's `str` that the bot relies on: `isspace`, `strip`,
  `split`, `join`, `count`, `replace`, `in`, `lower` and `endswith`, stated
  over `seq<char>` with Python's semantics.
 */
module Strings {

  /** Python's `str.isspace()` for one character; `\s` in a `str` regular
      expression matches exactly the same characters. */
  predicate IsSpace(c: char) {
    || ('\U{9}' <= c <= '\U{D}')
    || ('\U{1C}' <= c <= '\U{20}')
    || c == '\U{85}' || c == '\U{A0}' || c == '\U{1680}'
    || ('\U{2000}' <= c <= '\U{200A}')
    || c == '\U{2028}' || c == '\U{2029}' || c == '\U{202F}'
    || c == '\U{205F}' || c == '\U{3000}'
  }

  /** Every character is whitespace (the empty string included). */
  predicate Blank(s: string) {
    forall i :: 0 <= i < |s| ==> IsSpace(s[i])
  }

  /** No character of `s` is `c`. */
  predicate Lacks(s: string, c: char) {
    forall i :: 0 <= i < |s| ==> s[i] != c
  }

  lemma LacksAppend(a: string, b: string, c: char)
    ensures Lacks(a + b, c) <==> Lacks(a, c) && Lacks(b, c)
  {
    if Lacks(a + b, c) {
      assert forall i :: 0 <= i < |a| ==> a[i] == (a + b)[i];
      assert forall i :: 0 <= i < |b| ==> b[i] == (a + b)[|a| + i];
    }
  }

  predicate StartsWith(s: string, prefix: string) {
    |prefix| <= |s| && s[..|prefix|] == prefix
  }

  predicate EndsWith<T(==)>(s: seq<T>, suffix: seq<T>) {
    |suffix| <= |s| && s[|s| - |suffix|..] == suffix
  }

  /** Python's `sub in s`: `sub` occurs somewhere in `s`. */
  predicate Contains(s: string, sub: string)
    decreases |s|
  {
    StartsWith(s, sub) || (|s| > 0 && Contains(s[1..], sub))
  }

  /** ASCII lower-casing of one character. */
  function LowerChar(c: char): char {
    if 'A' <= c <= 'Z' then (c as int + 32) as char else c
  }

  /** Python's `str.lower()`, restricted to ASCII letters. */
  function Lower(s: string): string {
    seq(|s|, i requires 0 <= i < |s| => LowerChar(s[i]))
  }

  /** The number of whitespace characters `s` starts with. */
  function LeadingSpace(s: string): (n: nat)
    ensures n <= |s|
    ensures forall i :: 0 <= i < n ==> IsSpace(s[i])
    ensures n == |s| || !IsSpace(s[n])
    decreases |s|
  {
    if |s| > 0 && IsSpace(s[0]) then 1 + LeadingSpace(s[1..]) else 0
  }

  /** The number of whitespace characters `s` ends with. */
  function TrailingSpace(s: string): (n: nat)
    ensures n <= |s|
    ensures forall i :: |s| - n <= i < |s| ==> IsSpace(s[i])
    ensures n == |s| || !IsSpace(s[|s| - n - 1])
    decreases |s|
  {
    if |s| > 0 && IsSpace(s[|s| - 1]) then 1 + TrailingSpace(s[..|s| - 1]) else 0
  }

  /** Python's `str.lstrip()`: the leading whitespace removed. */
  function LStrip(s: string): string {
    s[LeadingSpace(s)..]
  }

  /** Python's `str.rstrip()`: the trailing whitespace removed. */
  function RStrip(s: string): string {
    s[..|s| - TrailingSpace(s)]
  }

  /** Python's `str.strip()`: the infix of `s` left once the whitespace at
      both ends is gone; it starts after the leading whitespace. */
  function Strip(s: string): (r: string)
    ensures LeadingSpace(s) + |r| <= |s|
    ensures r == s[LeadingSpace(s)..LeadingSpace(s) + |r|]
    ensures Blank(s[..LeadingSpace(s)])
    ensures Blank(s[LeadingSpace(s) + |r|..])
    ensures r == [] || (!IsSpace(r[0]) && !IsSpace(r[|r| - 1]))
  {
    LeadingBlank(s);
    DropBothEnds(s, LeadingSpace(s), TrailingSpace(LStrip(s)));
    StripTrailingBlank(s);
    StripEnds(s);
    RStrip(LStrip(s))
  }

  /** Dropping `a` items in front and then `n` at the back leaves an infix. */
  lemma DropBothEnds<T>(s: seq<T>, a: nat, n: nat)
    requires a <= |s| && n <= |s| - a
    ensures a + |s[a..][..|s[a..]| - n]| <= |s|
    ensures s[a..][..|s[a..]| - n] == s[a..a + |s[a..][..|s[a..]| - n]|]
  {
  }

  lemma StripTrailingBlank(s: string)
    ensures LeadingSpace(s) + |RStrip(LStrip(s))| <= |s|
    ensures Blank(s[LeadingSpace(s) + |RStrip(LStrip(s))|..])
  {
    var a := LeadingSpace(s);
    var l := s[a..];
    InfixOfSuffix(s, a, |l| - TrailingSpace(l));
    TrailingBlank(l);
  }

  /** The front of a suffix is an infix, and the rest of the suffix is the
      rest of the text. */
  lemma InfixOfSuffix<T>(s: seq<T>, a: nat, b: nat)
    requires a <= |s| && b <= |s| - a
    ensures s[a..][..b] == s[a..a + b]
    ensures s[a..][b..] == s[a + b..]
  {
  }

  lemma StripEnds(s: string)
    ensures var r := RStrip(LStrip(s)); r == [] || (!IsSpace(r[0]) && !IsSpace(r[|r| - 1]))
  {
    var a := LeadingSpace(s);
    var l := s[a..];
    var n := TrailingSpace(l);
    var r := l[..|l| - n];
    if r != [] {
      assert r[0] == s[a];
      assert r[|r| - 1] == l[|l| - n - 1];
    }
  }

  lemma LeadingBlank(s: string)
    ensures Blank(s[..LeadingSpace(s)])
  {
    var a := LeadingSpace(s);
    forall i | 0 <= i < a
      ensures IsSpace(s[..a][i])
    {
      assert s[..a][i] == s[i];
    }
  }

  lemma TrailingBlank(s: string)
    ensures Blank(s[|s| - TrailingSpace(s)..])
  {
    var b := |s| - TrailingSpace(s);
    forall i | 0 <= i < |s| - b
      ensures IsSpace(s[b..][i])
    {
      assert s[b..][i] == s[b + i];
    }
  }

  /** Python's `sep.join(parts)`. */
  function Join(parts: seq<string>, sep: string): string
    decreases |parts|
  {
    if |parts| == 0 then ""
    else if |parts| == 1 then parts[0]
    else parts[0] + sep + Join(parts[1..], sep)
  }

  /** Python's `s.split(sep)` for a non-empty separator: the pieces between
      the leftmost non-overlapping occurrences of `sep`. */
  function Split(s: string, sep: string): (r: seq<string>)
    requires |sep| > 0
    ensures |r| > 0
    decreases |s|
  {
    if |s| == 0 then [""]
    else if StartsWith(s, sep) then [""] + Split(s[|sep|..], sep)
    else
      var t := Split(s[1..], sep);
      [[s[0]] + t[0]] + t[1..]
  }

  /** Python's `s.count(sub)` for a non-empty `sub`: leftmost non-overlapping
      occurrences. */
  function Count(s: string, sub: string): (r: nat)
    requires |sub| > 0
    ensures r * |sub| <= |s|
    ensures r > 0 ==> Contains(s, sub)
    decreases |s|
  {
    if |s| == 0 then 0
    else if StartsWith(s, sub) then 1 + Count(s[|sub|..], sub)
    else Count(s[1..], sub)
  }

  /** Python's `s.replace(old, new)` for a non-empty `old`. */
  function Replace(s: string, target: string, replacement: string): string
    requires |target| > 0
  {
    Join(Split(s, target), replacement)
  }

  /** Concatenation of a sequence of sequences. */
  function Flatten<T>(ss: seq<seq<T>>): seq<T>
    decreases |ss|
  {
    if |ss| == 0 then [] else ss[0] + Flatten(ss[1..])
  }

  lemma FlattenAppend<T>(a: seq<seq<T>>, b: seq<seq<T>>)
    ensures Flatten(a + b) == Flatten(a) + Flatten(b)
    decreases |a|
  {
    if |a| == 0 {
      assert a + b == b;
    } else {
      assert (a + b)[0] == a[0];
      assert (a + b)[1..] == a[1..] + b;
      FlattenAppend(a[1..], b);
    }
  }

  /** `f` applied to each element, the results concatenated in order. */
  function FlatMap<T, U>(f: T -> seq<U>, xs: seq<T>): seq<U>
    decreases |xs|
  {
    if |xs| == 0 then [] else f(xs[0]) + FlatMap(f, xs[1..])
  }

  lemma {:induction false} FlatMapAppend<T, U>(f: T -> seq<U>, a: seq<T>, b: seq<T>)
    ensures FlatMap(f, a + b) == FlatMap(f, a) + FlatMap(f, b)
    decreases |a|
  {
    if |a| == 0 {
      assert a + b == b;
    } else {
      assert (a + b)[0] == a[0];
      assert (a + b)[1..] == a[1..] + b;
      FlatMapAppend(f, a[1..], b);
    }
  }
  /** The last element's image comes last. */
  lemma FlatMapSnoc<T, U>(f: T -> seq<U>, xs: seq<T>)
    requires |xs| > 0
    ensures FlatMap(f, xs) == FlatMap(f, xs[..|xs| - 1]) + f(xs[|xs| - 1])
  {
    var n := |xs|;
    assert xs == xs[..n - 1] + [xs[n - 1]];
    FlatMapAppend(f, xs[..n - 1], [xs[n - 1]]);
    assert [xs[n - 1]][1..] == [];
    assert FlatMap(f, [xs[n - 1]]) == f(xs[n - 1]) + FlatMap(f, []);
  }


  // ---------------------------------------------------------------------
  // Contains

  lemma TooShortContainsNothing(s: string, sub: string)
    requires |s| < |sub|
    ensures !Contains(s, sub)
    decreases |s|
  {
    if |s| > 0 {
      TooShortContainsNothing(s[1..], sub);
    }
  }

  /** An occurrence inside a prefix of `s` is an occurrence in `s`. */
  lemma ContainsPrefix(s: string, n: nat, sub: string)
    requires n <= |s|
    requires Contains(s[..n], sub)
    ensures Contains(s, sub)
    decreases n
  {
    if StartsWith(s[..n], sub) {
      assert s[..|sub|] == s[..n][..|sub|];
    } else {
      assert s[..n][1..] == s[1..][..n - 1];
      ContainsPrefix(s[1..], n - 1, sub);
    }
  }

  /** An occurrence inside a suffix of `s` is an occurrence in `s`. */
  lemma ContainsSuffix(s: string, k: nat, sub: string)
    requires k <= |s|
    requires Contains(s[k..], sub)
    ensures Contains(s, sub)
    decreases k
  {
    if k > 0 {
      assert s[1..][k - 1..] == s[k..];
      ContainsSuffix(s[1..], k - 1, sub);
    }
  }

  /** An occurrence inside an infix of `s` is an occurrence in `s`. */
  lemma ContainsInfix(s: string, a: nat, b: nat, sub: string)
    requires a <= b <= |s|
    requires Contains(s[a..b], sub)
    ensures Contains(s, sub)
  {
    assert s[a..b] == s[a..][..b - a];
    ContainsPrefix(s[a..], b - a, sub);
    ContainsSuffix(s, a, sub);
  }

  // ---------------------------------------------------------------------
  // Split

  /** Joining the pieces with the separator gives back the string. */
  lemma {:induction false} SplitJoin(s: string, sep: string)
    requires |sep| > 0
    ensures Join(Split(s, sep), sep) == s
    decreases |s|
  {
    if |s| > 0 {
      if StartsWith(s, sep) {
        SplitJoin(s[|sep|..], sep);
        SplitAtSep(s, sep);
        JoinCons("", Split(s[|sep|..], sep), sep);
        assert s == sep + s[|sep|..];
      } else {
        SplitJoin(s[1..], sep);
        SplitAtOther(s, sep);
        JoinHeadGrow([s[0]], Split(s[1..], sep), sep);
        assert s == [s[0]] + s[1..];
      }
    }
  }

  /** Joining one more piece at the front. */
  lemma JoinCons(a: string, t: seq<string>, sep: string)
    requires |t| > 0
    ensures Join([a] + t, sep) == a + sep + Join(t, sep)
  {
    assert ([a] + t)[1..] == t;
  }

  /** Growing the first piece at its front grows the join the same way. */
  lemma JoinHeadGrow(a: string, t: seq<string>, sep: string)
    requires |t| > 0
    ensures Join([a + t[0]] + t[1..], sep) == a + Join(t, sep)
  {
    var u := [a + t[0]] + t[1..];
    assert u[1..] == t[1..];
    if |t| > 1 {
      assert Join(u, sep) == (a + t[0]) + sep + Join(t[1..], sep);
    }
  }

  /** No piece holds the separator, and no piece but the last holds it
      even with the separator's first characters appended: each cut was
      made at the leftmost occurrence. */
  predicate LeftmostPieces(r: seq<string>, sep: string)
    requires |sep| > 0
  {
    && (forall i :: 0 <= i < |r| ==> !Contains(r[i], sep))
    && (forall i :: 0 <= i < |r| - 1 ==> !Contains(r[i] + sep[..|sep| - 1], sep))
  }

  /** Python's `str.split` cuts at leftmost occurrences. */
  lemma {:induction false} SplitLeftmost(s: string, sep: string)
    requires |sep| > 0
    ensures LeftmostPieces(Split(s, sep), sep)
    decreases |s|
  {
    if |s| == 0 {
      TooShortContainsNothing("", sep);
    } else if StartsWith(s, sep) {
      SplitLeftmost(s[|sep|..], sep);
      LeftmostAfterEmptyPiece(Split(s[|sep|..], sep), sep);
    } else {
      var t := Split(s[1..], sep);
      SplitLeftmost(s[1..], sep);
      SplitJoin(s[1..], sep);
      assert !Contains(t[0], sep);
      assert |t| > 1 ==> !Contains(t[0] + sep[..|sep| - 1], sep);
      LeftmostAfterCons(s, t, sep);
      LeftmostReplaceHead([s[0]] + t[0], t, sep);
    }
  }

  lemma LeftmostAfterEmptyPiece(t: seq<string>, sep: string)
    requires |sep| > 0
    requires LeftmostPieces(t, sep)
    ensures LeftmostPieces([""] + t, sep)
  {
    var r := [""] + t;
    TooShortContainsNothing("", sep);
    TooShortContainsNothing(sep[..|sep| - 1], sep);
    assert "" + sep[..|sep| - 1] == sep[..|sep| - 1];
    forall i | 0 <= i < |r|
      ensures !Contains(r[i], sep)
    {
      if i > 0 { assert r[i] == t[i - 1]; }
    }
    forall i | 0 <= i < |r| - 1
      ensures !Contains(r[i] + sep[..|sep| - 1], sep)
    {
      if i > 0 { assert r[i] == t[i - 1]; }
    }
  }

  lemma LeftmostAfterCons(s: string, t: seq<string>, sep: string)
    requires |sep| > 0 && |s| > 0 && |t| > 0
    requires !StartsWith(s, sep)
    requires Join(t, sep) == s[1..]
    requires !Contains(t[0], sep)
    requires |t| > 1 ==> !Contains(t[0] + sep[..|sep| - 1], sep)
    ensures !Contains([s[0]] + t[0], sep)
    ensures |t| > 1 ==> !Contains([s[0]] + t[0] + sep[..|sep| - 1], sep)
  {
    JoinHead(t, sep);
    ConsLacks(s, t[0], sep);
    if |t| > 1 {
      var u := t[0] + sep[..|sep| - 1];
      JoinHeadSep(t, sep);
      PrefixOfPrefix(s[1..], t[0] + sep, |u|);
      ConsLacks(s, u, sep);
      AppendAssoc([s[0]], t[0], sep[..|sep| - 1]);
    }
  }

  lemma AppendAssoc<T>(a: seq<T>, b: seq<T>, c: seq<T>)
    ensures a + b + c == a + (b + c)
  {
  }

  lemma PrefixOfPrefix<T>(s: seq<T>, p: seq<T>, n: nat)
    requires |p| <= |s| && s[..|p|] == p && n <= |p|
    ensures s[..n] == p[..n]
  {
    assert s[..n] == s[..|p|][..n];
  }

  /** A character that does not start the separator, put in front of a
      piece without it, makes no occurrence as long as the text goes on
      that way. */
  lemma ConsLacks(s: string, u: string, sep: string)
    requires |u| < |s| && s[1..][..|u|] == u
    requires !StartsWith(s, sep) && !Contains(u, sep)
    ensures !Contains([s[0]] + u, sep)
  {
    var x := [s[0]] + u;
    assert x == s[..|u| + 1] by {
      assert s[..|u| + 1] == [s[0]] + s[1..][..|u|];
    }
    assert x[1..] == u;
    PrefixLacks(x, s, sep);
  }

  /** The joined text starts with the first piece. */
  lemma JoinHead(t: seq<string>, sep: string)
    requires |t| > 0
    ensures |t[0]| <= |Join(t, sep)| && Join(t, sep)[..|t[0]|] == t[0]
  {
    if |t| > 1 {
      assert Join(t, sep) == t[0] + (sep + Join(t[1..], sep));
    }
  }

  /** When more pieces follow, the joined text starts with the first piece
      and the separator. */
  lemma JoinHeadSep(t: seq<string>, sep: string)
    requires |t| > 1
    ensures |t[0] + sep| <= |Join(t, sep)| && Join(t, sep)[..|t[0] + sep|] == t[0] + sep
  {
    assert Join(t, sep) == (t[0] + sep) + Join(t[1..], sep);
  }

  /** Replacing the first piece by one that keeps its properties keeps the
      pieces leftmost. */
  lemma LeftmostReplaceHead(head: string, t: seq<string>, sep: string)
    requires |sep| > 0 && |t| > 0 && LeftmostPieces(t, sep)
    requires !Contains(head, sep)
    requires |t| > 1 ==> !Contains(head + sep[..|sep| - 1], sep)
    ensures LeftmostPieces([head] + t[1..], sep)
  {
    var r := [head] + t[1..];
    forall i | 0 <= i < |r|
      ensures !Contains(r[i], sep)
    {
      if i > 0 { assert r[i] == t[i]; }
    }
    forall i | 0 <= i < |r| - 1
      ensures !Contains(r[i] + sep[..|sep| - 1], sep)
    {
      if i > 0 { assert r[i] == t[i]; }
    }
  }

  /** A prefix of a text that does not start with the separator holds the
      separator only if the prefix's tail does. */
  lemma PrefixLacks(x: string, s: string, sep: string)
    requires 0 < |x| <= |s| && x == s[..|x|]
    requires !StartsWith(s, sep) && !Contains(x[1..], sep)
    ensures !Contains(x, sep)
  {
    assert !StartsWith(x, sep) by {
      if |sep| <= |x| {
        assert s[..|sep|] == x[..|sep|];
      }
    }
  }

  /** A string without the separator splits into itself alone. */
  lemma {:induction false} SplitWithout(s: string, sep: string)
    requires |sep| > 0
    requires !Contains(s, sep)
    ensures Split(s, sep) == [s]
    decreases |s|
  {
    if |s| > 0 {
      assert !StartsWith(s, sep);
      SplitWithout(s[1..], sep);
      var t := Split(s[1..], sep);
      assert t == [s[1..]];
      assert Split(s, sep) == [[s[0]] + t[0]] + t[1..];
      assert s == [s[0]] + s[1..];
    }
  }

  /** Splitting on one character cuts at every occurrence of it: the pieces
      of `x + [c] + y` are those of `x` followed by those of `y`. */
  lemma {:induction false} SplitConcatChar(x: string, c: char, y: string)
    ensures Split(x + [c] + y, [c]) == Split(x, [c]) + Split(y, [c])
    decreases |x|
  {
    var s := x + [c] + y;
    if |x| == 0 {
      assert s == [c] + y;
      SplitAtSep(s, [c]);
      assert s[1..] == y;
    } else {
      assert s[1..] == x[1..] + [c] + y;
      SplitConcatChar(x[1..], c, y);
      var t := Split(x[1..], [c]);
      var v := Split(y, [c]);
      if x[0] == c {
        SplitAtSep(s, [c]);
        SplitAtSep(x, [c]);
        AppendAssoc([""], t, v);
      } else {
        SplitAtOther(s, [c]);
        SplitAtOther(x, [c]);
        assert (t + v)[0] == t[0];
        assert (t + v)[1..] == t[1..] + v;
        AppendAssoc([[x[0]] + t[0]], t[1..], v);
      }
    }
  }

  /** `Split` at a separator. */
  lemma SplitAtSep(s: string, sep: string)
    requires |sep| > 0 && StartsWith(s, sep)
    ensures Split(s, sep) == [""] + Split(s[|sep|..], sep)
  {
  }

  /** `Split` at a character that does not start a separator. */
  lemma SplitAtOther(s: string, sep: string)
    requires |sep| > 0 && |s| > 0 && !StartsWith(s, sep)
    ensures Split(s, sep) == [[s[0]] + Split(s[1..], sep)[0]] + Split(s[1..], sep)[1..]
  {
  }

  /** Appending a character other than a one-character separator extends the
      last piece. */
  lemma {:induction false} SplitSnocChar(x: string, c: char, w: char)
    requires w != c
    ensures Split(x + [w], [c])
         == Split(x, [c])[..|Split(x, [c])| - 1] + [Split(x, [c])[|Split(x, [c])| - 1] + [w]]
    decreases |x|
  {
    var s := x + [w];
    if |x| == 0 {
      assert !StartsWith(s, [c]);
      assert s[1..] == "";
      assert Split(s, [c]) == [[w] + ""];
      assert [w] + "" == "" + [w];
    } else {
      assert s[1..] == x[1..] + [w];
      SplitSnocChar(x[1..], c, w);
      var t := Split(x[1..], [c]);
      var n := |t|;
      var u := t[..n - 1] + [t[n - 1] + [w]];
      assert Split(s[1..], [c]) == u;
      if x[0] == c {
        assert StartsWith(s, [c]);
        assert StartsWith(x, [c]);
        assert Split(x, [c]) == [""] + t;
        assert Split(s, [c]) == [""] + u;
      } else {
        assert !StartsWith(s, [c]);
        assert !StartsWith(x, [c]);
        assert Split(x, [c]) == [[x[0]] + t[0]] + t[1..];
        assert Split(s, [c]) == [[x[0]] + u[0]] + u[1..];
        ExtendFirstThenLast(x[0], t, w);
      }
    }
  }

  /** Putting `x0` in front of the first piece commutes with putting `w`
      after the last one. */
  lemma ExtendFirstThenLast<T>(x0: T, t: seq<seq<T>>, w: T)
    requires |t| > 0
    ensures [[x0] + (t[..|t| - 1] + [t[|t| - 1] + [w]])[0]] + (t[..|t| - 1] + [t[|t| - 1] + [w]])[1..]
         == ([[x0] + t[0]] + t[1..])[..|t| - 1] + [([[x0] + t[0]] + t[1..])[|t| - 1] + [w]]
  {
    var n := |t|;
    var u := t[..n - 1] + [t[n - 1] + [w]];
    var b := [[x0] + t[0]] + t[1..];
    if n == 1 {
      assert u == [t[0] + [w]];
      assert [x0] + (t[0] + [w]) == [x0] + t[0] + [w];
      assert [[x0] + u[0]] + u[1..] == [[x0] + t[0] + [w]];
      assert b[..0] + [b[0] + [w]] == [[x0] + t[0] + [w]];
    } else {
      assert u[0] == t[0];
      assert u[1..] == t[1..n - 1] + [t[n - 1] + [w]];
      assert b[..n - 1] == [[x0] + t[0]] + t[1..n - 1];
      assert b[n - 1] == t[n - 1];
    }
  }

  /** One piece per occurrence counted by `Count`, plus one. */
  lemma {:induction false} SplitLength(s: string, sep: string)
    requires |sep| > 0
    ensures |Split(s, sep)| == Count(s, sep) + 1
    decreases |s|
  {
    if |s| > 0 {
      if StartsWith(s, sep) {
        SplitLength(s[|sep|..], sep);
      } else {
        SplitLength(s[1..], sep);
      }
    }
  }

  /** Replacing a string that does not occur changes nothing. */
  lemma ReplaceAbsent(s: string, target: string, replacement: string)
    requires |target| > 0
    requires !Contains(s, target)
    ensures Replace(s, target, replacement) == s
  {
    SplitWithout(s, target);
  }

  /** Removing every occurrence of `sep` from text that starts with one
      is removing them from the rest. */
  lemma ReplaceLeading(sep: string, q: string)
    requires |sep| > 0
    ensures Replace(sep + q, sep, "") == Replace(q, sep, "")
  {
    var s := sep + q;
    SplitAtSep(s, sep);
    assert s[|sep|..] == q;
    JoinCons("", Split(q, sep), "");
  }

  /** Text without the separator's first character is cut nowhere: it
      joins the first piece of what follows. */
  lemma {:induction false} SplitPrefixLacking(r: string, q: string, sep: string)
    requires |sep| > 0 && Lacks(r, sep[0])
    ensures Split(r + q, sep) == [r + Split(q, sep)[0]] + Split(q, sep)[1..]
    decreases |r|
  {
    var t := Split(q, sep);
    if |r| == 0 {
      assert r + q == q && r + t[0] == t[0];
      assert [t[0]] + t[1..] == t;
    } else {
      var s := r + q;
      assert s[0] == r[0] != sep[0];
      SplitAtOther(s, sep);
      assert s[1..] == r[1..] + q;
      SplitPrefixLacking(r[1..], q, sep);
      assert [s[0]] + (r[1..] + t[0]) == r + t[0];
    }
  }

  /** A prefix in which no occurrence of `sep` starts survives the
      removal of `sep` unchanged. */
  lemma ReplaceKeepsPrefix(p: string, q: string, sep: string)
    requires |sep| > 0 && |p| > 0
    requires !StartsWith(p + q, sep) && Lacks(p[1..], sep[0])
    ensures Replace(p + q, sep, "") == p + Replace(q, sep, "")
  {
    var s := p + q;
    var t := Split(q, sep);
    SplitAtOther(s, sep);
    assert s[1..] == p[1..] + q;
    SplitPrefixLacking(p[1..], q, sep);
    assert [s[0]] + (p[1..] + t[0]) == p + t[0];
    JoinHeadGrow(p, t, "");
  }

  // ---------------------------------------------------------------------
  // Strip

  /** Whitespace appended at the end does not change the stripped string. */
  lemma {:induction false} StripSnocSpace(x: string, w: char)
    requires IsSpace(w)
    ensures Strip(x + [w]) == Strip(x)
    decreases |x|
  {
    var y := x + [w];
    if |x| == 0 {
      StripBlank(y);
    } else {
      assert y[1..] == x[1..] + [w];
      if IsSpace(x[0]) {
        StripDropSpace(y);
        StripDropSpace(x);
        StripSnocSpace(x[1..], w);
      } else {
        StripNoLeadingSpace(x);
        StripNoLeadingSpace(y);
        RStripSnocSpace(x, w);
      }
    }
  }

  /** Text that starts with a non-space character is only stripped on the
      right. */
  lemma StripNoLeadingSpace(s: string)
    requires |s| > 0 && !IsSpace(s[0])
    ensures Strip(s) == RStrip(s)
  {
    assert s[0..] == s;
  }

  lemma RStripSnocSpace(x: string, w: char)
    requires IsSpace(w)
    ensures RStrip(x + [w]) == RStrip(x)
  {
    assert (x + [w])[..|x|] == x;
  }

  /** A leading whitespace character is stripped away. */
  lemma StripDropSpace(s: string)
    requires |s| > 0 && IsSpace(s[0])
    ensures Strip(s) == Strip(s[1..])
  {
    assert s[LeadingSpace(s)..] == s[1..][LeadingSpace(s[1..])..];
  }

  /** Whitespace put in front does not change the stripped string. */
  lemma StripConsSpace(w: char, x: string)
    requires IsSpace(w)
    ensures Strip([w] + x) == Strip(x)
  {
    assert ([w] + x)[1..] == x;
    StripDropSpace([w] + x);
  }

  lemma StripBlank(s: string)
    requires Blank(s)
    ensures Strip(s) == ""
  {
  }

  /** A string already stripped is its own strip. */
  lemma StripTrimmed(r: string)
    requires r == [] || (!IsSpace(r[0]) && !IsSpace(r[|r| - 1]))
    ensures Strip(r) == r
  {
    assert LeadingSpace(r) == 0;
    assert r[0..] == r;
    assert TrailingSpace(r) == 0;
    assert r[..|r|] == r;
  }

  /** Stripping keeps a missing character missing. */
  lemma StripLacks(s: string, c: char)
    requires Lacks(s, c)
    ensures Lacks(Strip(s), c)
  {
    var a := LeadingSpace(s);
    var r := Strip(s);
    forall i | 0 <= i < |r|
      ensures r[i] != c
    {
      assert r[i] == s[a + i];
    }
  }

  /** Stripping keeps a missing substring missing. */
  lemma StripNotContains(s: string, sub: string)
    requires !Contains(s, sub)
    ensures !Contains(Strip(s), sub)
  {
    var a := LeadingSpace(s);
    var r := Strip(s);
    if Contains(r, sub) {
      ContainsInfix(s, a, a + |r|, sub);
    }
  }

  /** A one-character string occurs exactly where the character does. */
  lemma {:induction false} ContainsChar(s: string, c: char)
    ensures Contains(s, [c]) <==> !Lacks(s, c)
    decreases |s|
  {
    if |s| > 0 {
      ContainsChar(s[1..], c);
      assert StartsWith(s, [c]) <==> s[0] == c;
      if !Lacks(s[1..], c) {
        var i :| 0 <= i < |s[1..]| && s[1..][i] == c;
        assert s[i + 1] == c;
      }
      if !Lacks(s, c) && s[0] != c {
        var i :| 0 <= i < |s| && s[i] == c;
        assert s[1..][i - 1] == c;
      }
    }
  }

  // ---------------------------------------------------------------------
  // Pieces of a split

  /** Every character of every piece is a character of the string split. */
  lemma {:induction false} SplitPiecesFrom(s: string, sep: string)
    requires |sep| > 0
    ensures forall i, j :: 0 <= i < |Split(s, sep)| && 0 <= j < |Split(s, sep)[i]| ==>
      Split(s, sep)[i][j] in s
    decreases |s|
  {
    if |s| > 0 {
      var r := Split(s, sep);
      if StartsWith(s, sep) {
        var t := Split(s[|sep|..], sep);
        SplitPiecesFrom(s[|sep|..], sep);
        SplitAtSep(s, sep);
        forall i, j | 0 <= i < |r| && 0 <= j < |r[i]|
          ensures r[i][j] in s
        {
          assert r[i] == t[i - 1];
          var k :| 0 <= k < |s[|sep|..]| && s[|sep|..][k] == t[i - 1][j];
          assert s[|sep| + k] == r[i][j];
        }
      } else {
        var t := Split(s[1..], sep);
        SplitPiecesFrom(s[1..], sep);
        SplitAtOther(s, sep);
        forall i, j | 0 <= i < |r| && 0 <= j < |r[i]|
          ensures r[i][j] in s
        {
          if i == 0 && j == 0 {
            assert r[0][0] == s[0];
          } else {
            var v := if i == 0 then t[0][j - 1] else t[i][j];
            assert r[i][j] == v;
            assert v in s[1..];
            var k :| 0 <= k < |s[1..]| && s[1..][k] == v;
            assert s[1 + k] == v;
          }
        }
      }
    }
  }

  /** A character the string lacks, no piece of its split holds. */
  lemma SplitPiecesLack(s: string, sep: string, c: char)
    requires |sep| > 0 && Lacks(s, c)
    ensures forall i :: 0 <= i < |Split(s, sep)| ==> Lacks(Split(s, sep)[i], c)
  {
    SplitPiecesFrom(s, sep);
  }

  /** The pieces of blank text are blank. */
  lemma SplitPiecesBlank(s: string, sep: string)
    requires |sep| > 0 && Blank(s)
    ensures forall i :: 0 <= i < |Split(s, sep)| ==> Blank(Split(s, sep)[i])
  {
    var r := Split(s, sep);
    SplitPiecesFrom(s, sep);
    forall i, j | 0 <= i < |r| && 0 <= j < |r[i]|
      ensures IsSpace(r[i][j])
    {
      var k :| 0 <= k < |s| && s[k] == r[i][j];
    }
  }

  /** A separator put between two strings is cut at, provided no occurrence
      starts in the first string: the pieces are those of each side. */
  lemma {:induction false} SplitConcat(x: string, sep: string, y: string)
    requires |sep| > 0
    requires !Contains(x + sep[..|sep| - 1], sep)
    ensures Split(x + sep + y, sep) == Split(x, sep) + Split(y, sep)
    decreases |x|
  {
    var s := x + sep + y;
    if |x| == 0 {
      assert s == sep + y;
      SplitAtSep(s, sep);
      assert s[|sep|..] == y;
    } else {
      SplitConcatHead(x, sep, y);
      SplitConcat(x[1..], sep, y);
      SplitAtOther(s, sep);
      SplitAtOther(x, sep);
      assert s[0] == x[0];
      ConsPieceAppend(x[0], Split(x[1..], sep), Split(y, sep));
    }
  }

  /** Extending the first piece commutes with appending more pieces. */
  lemma ConsPieceAppend(c: char, t: seq<string>, v: seq<string>)
    requires |t| > 0
    ensures [[c] + (t + v)[0]] + (t + v)[1..] == ([[c] + t[0]] + t[1..]) + v
  {
    assert (t + v)[0] == t[0];
    assert (t + v)[1..] == t[1..] + v;
    AppendAssoc([[c] + t[0]], t[1..], v);
  }

  /** The first step of `SplitConcat`: neither string starts with the
      separator, and the precondition holds one character on. */
  lemma SplitConcatHead(x: string, sep: string, y: string)
    requires |sep| > 0 && |x| > 0
    requires !Contains(x + sep[..|sep| - 1], sep)
    ensures !StartsWith(x + sep + y, sep) && !StartsWith(x, sep)
    ensures (x + sep + y)[1..] == x[1..] + sep + y
    ensures !Contains(x[1..] + sep[..|sep| - 1], sep)
  {
    var w := x + sep[..|sep| - 1];
    assert (x + sep + y)[1..] == x[1..] + sep + y;
    ContainsTail(w, sep);
    assert w[1..] == x[1..] + sep[..|sep| - 1];
    assert (x + sep + y)[..|w|] == w == w[..|w|];
    SharedPrefix(w, x + sep + y, |w|);
    if |sep| <= |x| {
      assert w[..|x|] == x == x[..|x|];
      SharedPrefix(w, x, |x|);
    }
  }

  /** Text that does not contain `sub` does not start with it, nor contain
      it from the next character on. */
  lemma ContainsTail(s: string, sub: string)
    requires |s| > 0 && !Contains(s, sub)
    ensures !StartsWith(s, sub) && !Contains(s[1..], sub)
  {
  }

  /** Strings agreeing on their first `n` characters agree on whether they
      start with anything at most `n` long. */
  lemma SharedPrefix(a: string, b: string, n: nat)
    requires n <= |a| && n <= |b| && a[..n] == b[..n]
    ensures forall p :: |p| <= n ==> (StartsWith(a, p) <==> StartsWith(b, p))
  {
    forall p | |p| <= n
      ensures StartsWith(a, p) <==> StartsWith(b, p)
    {
      assert a[..|p|] == a[..n][..|p|];
      assert b[..|p|] == b[..n][..|p|];
    }
  }

  /** A property every image of `f` has, the flattened images have. */
  lemma {:induction false} FlatMapAll<T, U>(f: T -> seq<U>, xs: seq<T>, P: U -> bool)
    requires forall x, u :: x in xs && u in f(x) ==> P(u)
    ensures forall u :: u in FlatMap(f, xs) ==> P(u)
    decreases |xs|
  {
    if |xs| > 0 {
      assert xs[0] in xs;
      assert forall x :: x in xs[1..] ==> x in xs;
      FlatMapAll(f, xs[1..], P);
    }
  }

  /** `f` applied to a single element. */
  lemma FlatMapOne<T, U>(f: T -> seq<U>, x: T)
    ensures FlatMap(f, [x]) == f(x)
  {
    assert [x][1..] == [];
    assert FlatMap(f, [x]) == f(x) + FlatMap(f, []);
  }

  /** Nothing flattened from empty images. */
  lemma {:induction false} FlatMapEmpty<T, U>(f: T -> seq<U>, xs: seq<T>)
    requires forall x :: x in xs ==> f(x) == []
    ensures FlatMap(f, xs) == []
    decreases |xs|
  {
    if |xs| > 0 {
      assert xs[0] in xs;
      assert forall x :: x in xs[1..] ==> x in xs;
      FlatMapEmpty(f, xs[1..]);
    }
  }

  /** Text without the first character of `sub` does not contain `sub`. */
  lemma {:induction false} LacksFirstChar(s: string, sub: string)
    requires |sub| > 0 && Lacks(s, sub[0])
    ensures !Contains(s, sub)
    decreases |s|
  {
    if |s| > 0 {
      assert s[0] != sub[0];
      LacksFirstChar(s[1..], sub);
    }
  }

  /** An occurrence in `p + q`, where `p` lacks the first character of
      `sub`, lies in `q`. */
  lemma {:induction false} ContainsPastLacking(p: string, q: string, sub: string)
    requires |sub| > 0 && Lacks(p, sub[0]) && Contains(p + q, sub)
    ensures Contains(q, sub)
    decreases |p|
  {
    if |p| > 0 {
      assert (p + q)[0] == p[0] != sub[0];
      assert (p + q)[1..] == p[1..] + q;
      ContainsPastLacking(p[1..], q, sub);
    } else {
      assert p + q == q;
    }
  }
}

=== FILE: utils.dfy ===
/**
  utils.py: cleaning a model reply of control characters, cutting it into
  message-sized chunks, and the element plan of the handout PDF.
 */
module Utils {
  import opened Strings
  import opened Layout

  /** The characters of the class `[\x00-\x1F\x7F]`. */
  predicate IsControl(c: char) {
    c <= '\U{1F}' || c == '\U{7F}'
  }

  /** No character of `s` is a control character. */
  predicate ControlFree(s: string) {
    forall i :: 0 <= i < |s| ==> !IsControl(s[i])
  }

  /** `clean_text`: every control character removed, everything else kept in
      order. */
  function CleanText(s: string): (r: string)
    ensures |r| <= |s|
    ensures ControlFree(r)
    decreases |s|
  {
    if |s| == 0 then ""
    else (if IsControl(s[0]) then "" else [s[0]]) + CleanText(s[1..])
  }

  /** Each character that is not a control character is kept as often as it
      occurs; control characters are all gone. */
  lemma {:induction false} CleanTextContents(s: string)
    ensures forall c :: multiset(CleanText(s))[c] == if IsControl(c) then 0 else multiset(s)[c]
    decreases |s|
  {
    if |s| > 0 {
      CleanTextContents(s[1..]);
      assert s == [s[0]] + s[1..];
      assert multiset(s) == multiset{s[0]} + multiset(s[1..]);
      var h := if IsControl(s[0]) then "" else [s[0]];
      assert CleanText(s) == h + CleanText(s[1..]);
      assert multiset(CleanText(s)) == multiset(h) + multiset(CleanText(s[1..]));
    }
  }

  /** Cleaning works piecewise: the cleaned concatenation is the
      concatenation of the cleaned pieces, so relative order is kept. */
  lemma {:induction false} CleanTextConcat(a: string, b: string)
    ensures CleanText(a + b) == CleanText(a) + CleanText(b)
    decreases |a|
  {
    if |a| == 0 {
      assert a + b == b;
    } else {
      assert (a + b)[0] == a[0];
      assert (a + b)[1..] == a[1..] + b;
      CleanTextConcat(a[1..], b);
      var h := if IsControl(a[0]) then "" else [a[0]];
      assert CleanText(a + b) == h + CleanText(a[1..] + b);
      assert CleanText(a) == h + CleanText(a[1..]);
    }
  }

  /** Cleaning leaves a string alone exactly when it holds no control
      character. */
  lemma {:induction false} CleanTextFixedPoints(s: string)
    ensures CleanText(s) == s <==> ControlFree(s)
    decreases |s|
  {
    if |s| > 0 && ControlFree(s) {
      assert ControlFree(s[1..]);
      CleanTextFixedPoints(s[1..]);
      assert s == [s[0]] + s[1..];
    }
  }

  /** Cleaning twice is cleaning once, so the reply that main.py cleans
      before handing it to `split_text` is cleaned again to no effect. */
  lemma CleanTextIdempotent(s: string)
    ensures CleanText(CleanText(s)) == CleanText(s)
  {
    CleanTextFixedPoints(CleanText(s));
  }

  /** `chunks` cut `s` into pieces of `n` characters, the last one possibly
      shorter, none empty. */
  predicate IsChunking(chunks: seq<string>, s: string, n: int) {
    && Flatten(chunks) == s
    && (forall i :: 0 <= i < |chunks| ==> 0 < |chunks[i]| <= n)
    && (forall i :: 0 <= i < |chunks| - 1 ==> |chunks[i]| == n)
  }

  /** `split_text`: the cleaned text cut into chunks of
      `chunkSize - prefixLength` characters, as few as that width allows.
      The source loops forever on a non-empty cleaned text when that width is
      not positive, so callers must avoid that case. */
  method SplitText(text: string, chunkSize: int, prefixLength: int) returns (chunks: seq<string>)
    requires chunkSize > prefixLength || CleanText(text) == ""
    ensures IsChunking(chunks, CleanText(text), chunkSize - prefixLength)
    ensures chunks == [] <==> CleanText(text) == ""
    ensures chunkSize > prefixLength ==>
      (|chunks| - 1) * (chunkSize - prefixLength) < |CleanText(text)| <= |chunks| * (chunkSize - prefixLength)
  {
    var n := chunkSize - prefixLength;
    var clean := CleanText(text);
    var rest := clean;
    chunks := [];
    while |rest| > 0
      invariant n > 0 || rest == ""
      invariant ChunkedSoFar(chunks, rest, clean, n)
      invariant chunks == [] ==> rest == clean
      decreases |rest|
    {
      var k := if n < |rest| then n else |rest|;
      ChunkStep(chunks, rest, clean, n, k);
      chunks := chunks + [rest[..k]];
      rest := rest[k..];
    }
  }

  /** The state of the loop of `split_text`: `chunks` already cut from the
      front of `clean`, `rest` still to cut; only the newest chunk may be
      short, and only once nothing is left. */
  predicate ChunkedSoFar(chunks: seq<string>, rest: string, clean: string, n: int) {
    && Flatten(chunks) + rest == clean
    && (forall i :: 0 <= i < |chunks| ==> 0 < |chunks[i]| <= n)
    && (forall i :: 0 <= i < |chunks| - 1 ==> |chunks[i]| == n)
    && (|rest| > 0 ==> forall i :: 0 <= i < |chunks| ==> |chunks[i]| == n)
    && (|rest| > 0 ==> |Flatten(chunks)| == |chunks| * n)
    && (chunks != [] ==> (|chunks| - 1) * n < |Flatten(chunks)| <= |chunks| * n)
  }

  /** One turn of the loop: cutting the next `min(n, |rest|)` characters
      keeps the loop state. */
  lemma ChunkStep(chunks: seq<string>, rest: string, clean: string, n: int, k: int)
    requires ChunkedSoFar(chunks, rest, clean, n)
    requires n > 0 && |rest| > 0 && k == (if n < |rest| then n else |rest|)
    ensures ChunkedSoFar(chunks + [rest[..k]], rest[k..], clean, n)
  {
    var piece := rest[..k];
    var next := chunks + [piece];
    assert Flatten(next) == Flatten(chunks) + piece by {
      FlattenAppend(chunks, [piece]);
      assert Flatten([piece]) == piece + Flatten([]);
    }
    assert Flatten(next) + rest[k..] == clean by {
      assert rest == piece + rest[k..];
    }
    assert forall i :: 0 <= i < |chunks| ==> next[i] == chunks[i];
    MulSucc(|chunks|, n);
  }

  lemma MulSucc(m: int, n: int)
    ensures (m + 1) * n == m * n + n
  {
  }

  /** A chunking is determined by the string and the width. With
      `CleanTextIdempotent`, `split_text` gives the same chunks for a reply
      whether or not it was cleaned first. */
  lemma {:induction false} ChunkingUnique(a: seq<string>, b: seq<string>, s: string, n: int)
    requires IsChunking(a, s, n) && IsChunking(b, s, n)
    ensures a == b
    decreases |s|
  {
    if |a| > 0 && |b| > 0 {
      assert Flatten(a) == a[0] + Flatten(a[1..]);
      assert Flatten(b) == b[0] + Flatten(b[1..]);
      if |a| == 1 || |b| == 1 {
        ChunkingUniqueLast(a, b, s, n);
      } else {
        assert |a[0]| == n == |b[0]|;
        assert a[0] == s[..n] == b[0];
        assert IsChunking(a[1..], s[n..], n);
        assert IsChunking(b[1..], s[n..], n);
        ChunkingUnique(a[1..], b[1..], s[n..], n);
        assert a == [a[0]] + a[1..];
        assert b == [b[0]] + b[1..];
      }
    } else if |a| > 0 {
      ChunkingUniqueEmpty(b, a, s, n);
    } else if |b| > 0 {
      ChunkingUniqueEmpty(a, b, s, n);
    }
  }

  /** An empty chunking is the only chunking of the empty string. */
  lemma ChunkingUniqueEmpty(a: seq<string>, b: seq<string>, s: string, n: int)
    requires IsChunking(a, s, n) && IsChunking(b, s, n)
    requires |a| == 0
    ensures |b| == 0
  {
  }

  /** The case of `ChunkingUnique` where one side is a single chunk. */
  lemma ChunkingUniqueLast(a: seq<string>, b: seq<string>, s: string, n: int)
    requires IsChunking(a, s, n) && IsChunking(b, s, n)
    requires |a| > 0 && |b| > 0 && (|a| == 1 || |b| == 1)
    ensures a == b
  {
    assert Flatten(a) == a[0] + Flatten(a[1..]);
    assert Flatten(b) == b[0] + Flatten(b[1..]);
    if |a| == 1 && |b| == 1 {
      assert Flatten(a[1..]) == [] && Flatten(b[1..]) == [];
      assert a[0] == s && b[0] == s;
      assert a == [a[0]] && b == [b[0]];
    } else {
      // `s` would be one chunk of at most n characters and also a full chunk
      // of n followed by a non-empty one.
      assert false;
    }
  }

  // -----------------------------------------------------------------------
  // The handout plan of generate_formatted_pdf

  /** One `"\n\n"`-separated section: its paragraphs, then a rule and an
      8-point spacer, whatever the section holds. */
  function HandoutSection(sec: string): seq<Element> {
    SectionBlock(sec) + RuleBreak
  }

  /** The element plan utils.py builds for `text`. */
  function HandoutPlan(text: string): seq<Element> {
    Header + FlatMap(HandoutSection, Split(text, "\n\n"))
  }

  lemma {:induction false} HandoutSectionsCounts(secs: seq<string>)
    ensures RuleCount(FlatMap(HandoutSection, secs)) == |secs|
    ensures Bodies(FlatMap(HandoutSection, secs)) == FlatMap(Paragraphs, secs)
    decreases |secs|
  {
    if |secs| > 0 {
      var sec := HandoutSection(secs[0]);
      var rest := FlatMap(HandoutSection, secs[1..]);
      HandoutSectionsCounts(secs[1..]);
      HandoutSectionCounts(secs[0]);
      RuleCountAppend(sec, rest);
      BodiesAppend(sec, rest);
    }
  }

  /** One section: one rule, and its paragraphs as the body text. */
  lemma HandoutSectionCounts(sec: string)
    ensures RuleCount(HandoutSection(sec)) == 1
    ensures Bodies(HandoutSection(sec)) == Paragraphs(sec)
  {
    SectionBlockContents(Paragraphs(sec));
    RuleCountAppend(SectionBlock(sec), RuleBreak);
    BodiesAppend(SectionBlock(sec), RuleBreak);
    RuleBreakCounts();
  }

  lemma RuleBreakCounts()
    ensures RuleCount(RuleBreak) == 1 && Bodies(RuleBreak) == []
  {
    assert RuleBreak[1..] == [Spacer(8)] && RuleBreak[1..][1..] == [];
    assert Bodies([Spacer(8)]) == BodyText(Spacer(8)) + Bodies([]) == [];
    assert Bodies(RuleBreak) == BodyText(Rule) + Bodies([Spacer(8)]) == [];
  }

  /** Two texts separated by a blank line: the paragraphs of each, in turn. */
  lemma ParagraphsAroundBlankLine(x: string, y: string)
    ensures Paragraphs(x + "\n\n" + y) == Paragraphs(x) + Paragraphs(y)
  {
    var z := "\n" + y;
    assert Paragraphs(z) == Paragraphs(y) by {
      assert z[1..] == y;
      ParagraphsDropSpace(z);
    }
    assert x + "\n\n" + y == x + "\n" + z;
    ParagraphsConcat(x, z);
  }

  /** Paragraphs of sections joined by blank lines: each section's in turn. */
  lemma {:induction false} ParagraphsOfSections(secs: seq<string>)
    ensures Paragraphs(Join(secs, "\n\n")) == FlatMap(Paragraphs, secs)
    decreases |secs|
  {
    if |secs| == 0 {
      assert Split("", "\n") == [""];
      assert Paragraphs("") == KeepLine("") + NonBlank([]) == [];
    } else if |secs| == 1 {
      assert secs[1..] == [];
      assert FlatMap(Paragraphs, secs) == Paragraphs(secs[0]) + FlatMap(Paragraphs, []);
    } else {
      var y := Join(secs[1..], "\n\n");
      assert Join(secs, "\n\n") == secs[0] + "\n\n" + y;
      ParagraphsAroundBlankLine(secs[0], y);
      ParagraphsOfSections(secs[1..]);
    }
  }

  /** The handout plan opens with the title and its spacer and closes with
      a rule and its spacer: a final rule is drawn even after the last
      section. */
  lemma HandoutPlanFrame(text: string)
    ensures |HandoutPlan(text)| >= 4
    ensures HandoutPlan(text)[..2] == Header
    ensures HandoutPlan(text)[|HandoutPlan(text)| - 2..] == RuleBreak
  {
    var secs := Split(text, "\n\n");
    var n := |secs|;
    var front := FlatMap(HandoutSection, secs[..n - 1]);
    var last := HandoutSection(secs[n - 1]);
    FlatMapSnoc(HandoutSection, secs);
    AppendAssoc(Header, front, last);
    EndsWith2(SectionBlock(secs[n - 1]), RuleBreak);
    EndsWith2(Header + front, last);
  }

  /** The last two elements of `a + b`, when `b` has at least two, are
      those of `b`; and `a` is still in front. */
  lemma EndsWith2<T>(a: seq<T>, b: seq<T>)
    requires |b| >= 2
    ensures (a + b)[|a + b| - 2..] == b[|b| - 2..]
    ensures (a + b)[..|a|] == a
  {
  }


  /** One rule per section, that is one more than the blank-line separators
      in the text; and the body paragraphs are exactly the non-blank stripped
      lines of the text, in order, as if the text had not been cut into
      sections at all. */
  lemma HandoutPlanCounts(text: string)
    ensures RuleCount(HandoutPlan(text)) == Count(text, "\n\n") + 1
    ensures Bodies(HandoutPlan(text)) == Paragraphs(text)
  {
    var secs := Split(text, "\n\n");
    var body := FlatMap(HandoutSection, secs);
    HandoutSectionsCounts(secs);
    assert RuleCount(HandoutPlan(text)) == Count(text, "\n\n") + 1 by {
      SplitLength(text, "\n\n");
      RuleCountAppend(Header, body);
      HeaderCounts();
    }
    assert Bodies(HandoutPlan(text)) == Paragraphs(text) by {
      SplitJoin(text, "\n\n");
      ParagraphsOfSections(secs);
      BodiesAppend(Header, body);
      HeaderCounts();
    }
  }
}

=== FILE: wrappers.dfy ===
/** The optional value used where the bot keeps `None` or an object. */
module Wrappers {

  datatype Option<+T> = None | Some(value: T)
}
